=== FILE: README.md ===
# Wally board engine in Dafny

A model of the board engine of Wally, a small Go program: `wally.py`
reconstructs Jonathan K. Millen's 1981 program. The board is a flat,
row-major list of byte-sized cells. A one-square ring of off-board
sentinels surrounds it, so a board of size `n` has range `R = n + 2` and
`R * R` cells. Each cell is bit-encoded:

- 0 is empty, 1 a black stone, 2 a white stone;
- 4 is the stone marker, 8 the liberty marker;
- 7 is off-board.

The model covers these parts of the engine:

- the board mutators `create`, `place_stone`, `remove_stone`, `restore` and
  `clear_group`;
- the marking flood fill `count`, which returns a stone group and its
  liberties;
- `reset`, `reset_best_attr` and the constructor's move-selection state;
- the one-ply move logic: `lookahead`, `eval_liberty`, the capture pass
  `weffect` and the response pass `beffect`;
- the validator `check_input` and the coordinate conversions `move2square`
  and `square2move`.

Modules, one per file:

| file | module | contents |
|---|---|---|
| cells.dfy | `Cells` | the piece encoding (`bv8`) and `Option` |
| geometry.dfy | `Geometry` | ring, playable squares, the four neighbours, paths and reachability |
| grid.dfy | `Grid` | board predicates (`Framed`, `Clean`), `create` and the mutators |
| scanner.dfy | `Scanner` | `count` and its characterisation as a connected component |
| engine.dfy | `Engine` | the `Board` state (`Game`), `lookahead`, `eval_liberty`, `weffect`, `beffect` |
| capture.dfy | `Capture` | what `weffect` does to a clean board |
| atari.dfy | `Atari` | what `beffect` records and answers on a clean board |
| coords.dfy | `Coords` | `check_input`, `move2square`, `square2move`, decimal rows, Python indexing |

Other modelling choices:

- A board "between turns" is `Clean`: every ring cell is 7 and every
  playable cell is 0, 1 or 2.
- `count` is a pair of mutually recursive functions. They thread the board
  and stop because the set of unmarked matching stones shrinks.
- `random.choice` is a parameter `pick`, assumed only to return an element
  of the nonempty set it is given (`PicksMember`). Every property holds for
  every such choice.
- The passes over the board are functions from one `Game` to the next.
  `Game` holds the cells, `best_liberties`, `best_move` and the two atari
  lists.

## Model

| member | source | states |
|---|---|---|
| Grid.Create | wally.py:79-90 | with the default margin 2 the board has (n+2)*(n+2) cells, holding 7 exactly on the ring (first or last row or column) and 0 everywhere else |
| Grid.CreateWithMargin | wally.py:68-90 | with any margin, the top and bottom rows hold n + margin sentinels (none when negative) and the n middle rows n + 2 squares each, so the board has 2*max(n + margin, 0) + n*(n+2) cells |
| Grid.CreateIsClean | wally.py:79-90 | a fresh board is clean |
| Grid.CreateFitsRange | wally.py:68-90 | for a board of at least one column, the board `create` builds has BOARD_RANGE*BOARD_RANGE cells, BOARD_RANGE being n + margin, exactly when the margin is 2 |
| Grid.PlaceStone | wally.py:122-123 | the square holds the given piece and no other square changes |
| Grid.RemoveStone | wally.py:125-126 | the square keeps its liberty bit and loses every other bit (colour, marker, sentinel), and no other square changes |
| Grid.RemoveUndoesPlace | wally.py:122-126 | removing a stone just placed on an empty square gives the board back |
| Grid.Restore | wally.py:157-163 | sentinels stay, every other square keeps its two colour bits and loses the marker bits |
| Grid.RestoreIdempotent | wally.py:157-163 | restoring twice equals restoring once |
| Grid.RestoreClean | wally.py:157-163 | a clean board is left unchanged |
| Grid.ClearGroup | wally.py:169-171 | exactly the listed squares become empty |
| Grid.ClearGroupKeepsClean | wally.py:169-171 | clearing playable squares of a clean board leaves a clean board |
| Scanner.Count | wally.py:129-155 | the board stays framed; the group holds only unmarked stones of the colour, the liberties only empty squares; no new such stones or empty squares appear |
| Scanner.CountAll | wally.py:143-147 | the loop over the neighbours keeps the board framed, takes only unmarked stones of the colour and empty squares, and creates no new such stones or empty squares |
| Scanner.MarkStone | wally.py:141 | the square gains the marker bit, no other square changes, it leaves the unmarked stones of its colour, and the empty squares stay as they were |
| Scanner.CountFindsGroup | wally.py:129-155 | the group is exactly the squares reachable from the start through 4-neighbour steps over unmarked stones of the colour. From a stone, the liberties are exactly the empty squares next to the group. From an empty square the result is ({}, {square}); from any other square it is ({}, {}) |
| Scanner.CountOnlyMarks | wally.py:133-154 | group and liberties are disjoint. Group squares gain the marker and liberty squares become 8. Every other square, every colour bit and every sentinel is unchanged |
| Scanner.RestoreAfterCount | wally.py:129-163 | restoring after a scan gives what restoring before it gives: the scan's marks are exactly what restore removes |
| Engine.NewGame | wally.py:56-77 | the constructor's game has size n and the board `create` builds, which is clean; there is no best move, best_liberties = n*n and the atari lists are empty |
| Engine.Reset | wally.py:117-120 | a fresh clean board and a forgotten best move; the atari lists survive |
| Engine.ResetBestAttr | wally.py:165-167 | the best move is forgotten and best_liberties is n*n; the board and the atari lists are kept |
| Engine.Lookahead | wally.py:284-289 | on a clean board and an empty playable square, the board after place, scan, remove and restore is the board before |
| Engine.LookaheadCountsLiberties | wally.py:284-289 | the count returned is the number of liberties of the black group through the square once black stands there |
| Engine.EvalLiberty | wally.py:278-282 | the best move becomes (square, len(liberties)) if and only if len(liberties) <= best_liberties and the lookahead gives at least 2. Otherwise nothing changes; when the first test fails the result is the input game itself. best_liberties never grows, and on a clean board the cells are kept when the square is empty (on an occupied square the lookahead's `remove_stone` erases the stone) |
| Engine.OffEdge | wally.py:229 | a square that passes the edge test has no neighbour on the ring; on a clean board, where the sentinel is exactly the ring, it passes exactly when none of its four neighbours lies on the ring |
| Engine.OffEdgeLiberties | wally.py:226-230 | the off-edge liberties are a subset of the liberties, and on a clean board they are exactly those whose neighbours are all off the ring |
| Engine.WEffectExtend | wally.py:225-236 | the extension step keeps the game valid and the atari lists, never raises best_liberties, and on a clean board keeps the cells. A group with three or more liberties, or with no liberty away from the edge, is passed over. A new best move is an off-edge liberty of a group with one or two liberties, where the lookahead leaves black at least two. The chosen off-edge liberty is taken exactly when it passes both `eval_liberty` tests; otherwise best_move and best_liberties stay as they were |
| Engine.WEffectVisit | wally.py:214-236 | one visit keeps the game valid and the atari lists, never raises best_liberties, and leaves the game as it is on a square without a black stone |
| Engine.WEffectFrom | wally.py:213-236 | the loop from a square on keeps the game valid and the atari lists, and never raises best_liberties |
| Engine.WEffect | wally.py:213-236 | the pass keeps the game valid and the atari lists, and never raises best_liberties |
| Engine.BEffectFrom | wally.py:238-262 | the scan only appends to the atari lists |
| Engine.BEffectVisit | wally.py:239-263 | one visit keeps the game valid and appends at most one entry to the atari lists, keeping the earlier entries |
| Engine.BEffect | wally.py:238-269 | beffect with the atari comparison as intended keeps the game valid and the earlier atari entries; with an atari recorded, the best move is a recorded move whose count is the largest recorded |
| Engine.FirstMaxIndex | wally.py:266-267 | max followed by index: the position holds a largest element and every earlier element is smaller |
| Engine.SelectAtari | wally.py:265-269 | with an atari recorded, the answer is a recorded move together with its count; that count is the largest, and it is the first among equals. With none recorded the game is unchanged |
| Engine.BEffectAsWrittenRaises | wally.py:265 | beffect as written ends in AttributeError on every board |
| Engine.BEffectAsWritten | wally.py:238-265 | beffect as written either completes with the result of the intended beffect or raises AttributeError |
| Capture.WEffectFromClears | wally.py:213-236 | loop invariant: after squares below k are visited, the board is the start board with the dead black groups through those squares cleared |
| Capture.WEffectVisitExtends | wally.py:214-236 | on the board with the dead groups below k cleared, the visit of a black stone whose group has a liberty hands the extension step exactly that group's liberties on the starting board, all of them playable squares |
| Capture.WEffectChoosesDefence | wally.py:213-236 | on a clean board, a best move or best_liberties that weffect changes is a playable square with no neighbour on the ring, still empty when the pass ends. It is a liberty of a black group of the starting board, and that group's liberty count, one or two, becomes best_liberties |
| Capture.WEffectCaptures | wally.py:213-236 | on a clean board weffect empties exactly the squares of black groups with no liberty at entry, keeps every other square (white stones included), leaves the board clean, and every black group left has a liberty |
| Atari.BEffectVisitRecords | wally.py:243-254 | visiting a white stone whose group has one liberty appends that liberty and the lookahead count there |
| Atari.BEffectVisitEvaluates | wally.py:261-263 | on a clean board the visit of a white stone whose group has two or more liberties calls eval_liberty with one of exactly those liberties and that liberty set |
| Atari.BEffectFromKeepsBoard | wally.py:238-262 | on a clean board the scan leaves the board as it was |
| Atari.BEffectFromSound | wally.py:238-262 | every appended entry is the only liberty of a white group in atari, with black's liberty count after playing there |
| Atari.BEffectFromComplete | wally.py:238-262 | the only liberty of every white group in atari at or after the start square is appended |
| Atari.BEffectScanRecords | wally.py:238-262 | on a clean board the scan keeps the board. It appends an entry exactly when some white group is in atari, and every appended entry is an atari rescue |
| Atari.BEffectAnswersAtari | wally.py:238-269 | starting from empty atari lists, beffect (with the comparison as intended) records an atari exactly when a white group is in atari. It then answers that group's only liberty, with a lookahead count no smaller than any recorded |
| Atari.BEffectOffersOutsideAtari | wally.py:238-289 | on a clean board, when the scan records no atari, a best move or best_liberties it changes is an empty playable square where the lookahead leaves black at least two liberties. It is a liberty of a white group of the board, and that group's liberty count, two or more, becomes best_liberties |
| Coords.ParseShow | wally.py:203-210 | int(str(n)) == n |
| Coords.ShowParse | wally.py:203-210 | str(int(s)) == s for a numeral without leading zeros |
| Coords.PyIndex | wally.py:367-368 | a Python index in range selects a position of the list, equal to it modulo the length |
| Coords.CheckInput | wally.py:174-200 | an accepted move has a row of digits in 1..n and a column, read case-insensitively, from 'a' to chr(97 + n), on a board of at most 25 columns; every move of the board-sized validator is accepted |
| Coords.Move2Square | wally.py:203-204 | for a lower-case column it agrees with the corrected conversion; for an upper-case column it gives an index 65 past it |
| Coords.Square2Move | wally.py:207-210 | a column character from chr(96) up to chr(95 + R), then a numeral without leading zeros when the row is not negative |
| Coords.CheckInputExtraColumn | wally.py:174-200 | on boards of at most 25 columns, check_input accepts exactly the moves of the board-sized validator plus those naming column chr(97 + n) |
| Coords.CheckInputRejectsWideBoards | wally.py:178-182 | from 26 columns on, chr(97 + n) lies past 'z' and check_input rejects every move |
| Coords.MoveToSquare | wally.py:203-210 | with the corrected conversion `Coords.Move2SquareFixed`, which reads the column as lower case: every move the board-sized validator accepts maps, once Python wraps the negative index, to row R-1-r and column c-'a'+1. That square is playable, and square2move writes the move back |
| Coords.MoveRoundTrip | wally.py:203-210 | for a lower-case column in 'a'..chr(96+n) and a canonical row r in 1..n, move2square is negative. Adding R*R gives (R-1-r)*R + (c-'a') + 1, a playable square, and square2move of it is the move |
| Coords.SquareToMove | wally.py:207-210 | square2move of a playable square is a lower-case column and a canonical row |
| Coords.SquareRoundTrip | wally.py:174-210 | square2move of a playable square passes the board-sized validator, and move2square of it wraps back to the square |
| Coords.CheckInputAcceptsRing | wally.py:180-204 | a move in column chr(97 + n) passes check_input and lands on the sentinel ring |
| Coords.UppercaseColumnShifted | wally.py:181-204 | an upper-case column passes check_input, but move2square gives an index 65 past the intended one, and it never selects the intended square |
| Coords.UppercaseOutOfRange | wally.py:181-204 | "A1" on a size-5 board passes check_input, and move2square gives 52, past the 49-cell board |

## Left out

- `render` (wally.py:93-115), `main` (wally.py:307-379) and every `print`,
  `input`, `exit` and `sleep`: console I/O. `check_input` is modelled by its
  return value only, and `weffect` and `beffect` by the board and the
  selection state.
- `place_handicap_stones` (wally.py:296-304): a random placement loop.
  Its start-up call (wally.py:322) is commented out, but the `reset`
  command calls it after `board.reset()` (wally.py:360-362), so that
  command also places about sqrt(n) random black stones. `Engine.Reset`
  models only `Board.reset`.
- The commented-out `BOARDS` table (wally.py:31-52) and the `pats` stub
  (wally.py:291-293).
- Margins other than 2: `Game.Range()` is always `size + 2`. With another
  margin the top and bottom rows of `create` change length while the
  middle rows do not, so the board no longer has BOARD_RANGE*BOARD_RANGE
  cells (`Grid.CreateWithMargin`, `Grid.CreateFitsRange`) and the index
  arithmetic of the engine no longer matches it.
- `random.choice` is the `pick` parameter, not a pseudo-random generator.
  `next(iter(liberties))` on a one-liberty set equals any pick. `pick` is
  one fixed function, so two calls on the same set give the same square,
  while Python may give different ones. The proved properties hold for
  every member-returning `pick` and use no relation between calls.
- The crash in `main` when `square2move(None)` runs with no best move
  (wally.py:375). `bestMove` is an `Option`.
- Python's recursion limit on the recursive `count`.
- Coords.Lower, Coords.AllDigits: ASCII only. Python's `str.lower` and
  `str.isdigit` also accept other Unicode letters and digits.
- Coords.Move2Square: requires a row of digits. Python's `int` also
  accepts signs, spaces and underscores, but `move2square` runs only after
  `check_input`'s `isdigit` test has passed.
- Coords.Square2Move: requires a range of at most 0xD000, so that every
  column letter is a Dafny `char`. `check_input` limits boards to 25
  columns.
- Engine.WEffect: its contract does not state the capture behaviour;
  `Capture.WEffectCaptures` states it, and `Capture.WEffectChoosesDefence`
  the best move, both for clean boards. The pass-level statement of the best
  move omits the lookahead test: each test ran on the board at its step,
  and later captures change that board. `Capture.WEffectVisitExtends`
  hands each live group's liberties to `Engine.WEffectExtend`, whose
  two-way contract states the tests for one step.
- Engine.BEffect, Engine.BEffectFrom: their contracts keep the game valid
  and only append to the atari lists. For clean boards, the atari branch is
  stated by `Atari.BEffectScanRecords` and `Atari.BEffectAnswersAtari`. The
  `eval_liberty` branch is stated one visit at a time by
  `Atari.BEffectVisitEvaluates`, which hands the group's liberties to
  `Engine.EvalLiberty` and its two-way contract. For a scan that records no
  atari, `Atari.BEffectOffersOutsideAtari` states what the pass leaves.
  No pass-level lemma says that a move is offered. When an atari is recorded after an `eval_liberty`
  move, the final selection replaces that move
  (`Atari.BEffectAnswersAtari`).
- Atari.BEffectAnswersAtari: stated for empty atari lists on entry.
  `wally.py` never clears the lists (wally.py:76-77, 165-167), so on later
  moves the final selection also weighs entries from earlier turns.
  `Atari.BEffectScanRecords` states the scan for any lists on entry.
- Capture.WEffectCaptures: stated for clean boards, the state between
  turns. It does not summarise the `eval_liberty` calls the pass makes,
  which `Engine.EvalLiberty` states one call at a time.

## Findings

| source | as written | input that shows it | evidently intended | confidence | as-written member | corrected member |
|---|---|---|---|---|---|---|
| wally.py:180-185 | `last_char = chr(97 + board_size)`, and columns up to `last_char` are accepted | board size 5, move "f1": accepted; `move2square` gives -8, which Python wraps to 41, a sentinel at the east edge. `main` then reports the square as occupied | the last column is `chr(96 + board_size)` | not executed | Coords.CheckInput, Coords.CheckInputAcceptsRing | Coords.CheckInputFixed, Coords.MoveToSquare |
| wally.py:181-204 | `check_input` lowercases the column, but `move2square` uses the raw `ord` | board size 5, move "A1": accepted; `move2square` gives 52, an IndexError on the 49-cell board. On larger boards the index lands on another square | `move2square` reads the column as lower case | not executed | Coords.Move2Square, Coords.UppercaseColumnShifted | Coords.Move2SquareFixed, Coords.MoveToSquare |
| wally.py:265 | the atari comparison tests `board.best_atari_move`, which no `Board` object defines | any board: `beffect` raises AttributeError after its scan | test whether an atari was recorded (`board.white_atari_move`), then take the first largest count | not executed | Engine.BEffectAsWritten, Engine.BEffectAsWrittenRaises | Engine.BEffect, Atari.BEffectAnswersAtari |

=== FILE: atari.dfy ===
/**
 * What `beffect` does on a clean board: it leaves the board as it was,
 * records the only liberty of every white group in atari (once per stone
 * of the group) together with the lookahead count there, and, with the
 * atari comparison as intended, answers the recorded rescue square that
 * leaves black the most liberties.
 */
module Atari {
  import opened Cells
  import opened Geometry
  import opened Grid
  import opened Scanner
  import opened Engine

  /** The white stone `s` is in atari: its group has exactly one liberty. */
  ghost predicate InAtari(b: seq<Cell>, R: int, s: int) {
    && 0 <= s < |b|
    && b[s] == WHITE
    && |LibertiesOf(b, R, Group(b, R, WHITE, s))| == 1
  }

  /** The number of liberties the black group through `m` has once a black
      stone stands on `m`. */
  ghost function LibertiesAfterBlack(b: seq<Cell>, R: int, m: int): nat
    requires 0 <= m < |b|
  {
    var placed := PlaceStone(b, m, BLACK);
    |LibertiesOf(placed, R, Group(placed, R, BLACK, m))|
  }

  /** `m` is the only liberty of some white group of `b`, and `n` is the
      number of liberties black has after playing there. */
  ghost predicate AtariRescue(b: seq<Cell>, R: int, m: int, n: nat) {
    && 0 <= m < |b|
    && (exists s :: InAtari(b, R, s) && LibertiesOf(b, R, Group(b, R, WHITE, s)) == {m})
    && n == LibertiesAfterBlack(b, R, m)
  }

  /** A set with one element is that element's singleton. */
  lemma Singleton(s: set<int>, x: int)
    requires |s| == 1 && x in s
    ensures s == {x}
  {
    assert |s - {x}| == 0;
  }

  /** On a clean board a scan of a white stone finds its group and its
      liberties, and restoring afterwards gives the board back. */
  lemma WhiteScan(b: seq<Cell>, R: int, k: int)
    requires Clean(b, R) && 0 <= k < |b| && b[k] == WHITE
    ensures Count(b, R, k, WHITE).liberties == LibertiesOf(b, R, Group(b, R, WHITE, k))
    ensures Restore(Count(b, R, k, WHITE).board) == b
  {
    CountFindsGroup(b, R, k, WHITE);
    RestoreAfterCount(b, R, k, WHITE);
    RestoreClean(b, R);
  }

  /** On a clean board one visit of the `beffect` loop keeps the board. */
  lemma BEffectVisitKeepsBoard(b: seq<Cell>, R: int, g: Game, pick: set<int> -> int, k: nat)
    requires Clean(b, R) && PicksMember(pick) && k < |b|
    requires g.Valid() && g.cells == b && g.Range() == R
    ensures BEffectVisit(g, pick, k).cells == b
    ensures BEffectVisit(g, pick, k).Range() == R
  {
    if b[k] == WHITE {
      WhiteScan(b, R, k);
      PiecesInside(b, R, EMPTY, Count(b, R, k, WHITE).liberties);
    }
  }

  /** On a clean board the visit of a white stone in atari appends one
      entry to the atari lists: its group's only liberty and the lookahead
      count there. */
  lemma BEffectVisitRecords(b: seq<Cell>, R: int, g: Game, pick: set<int> -> int, k: nat)
    requires Clean(b, R) && PicksMember(pick) && k < |b|
    requires g.Valid() && g.cells == b && g.Range() == R
    requires InAtari(b, R, k)
    ensures |BEffectVisit(g, pick, k).atariMoves| == |g.atariMoves| + 1
    ensures LibertiesOf(b, R, Group(b, R, WHITE, k)) == {BEffectVisit(g, pick, k).atariMoves[|g.atariMoves|]}
    ensures AtariRescue(b, R, BEffectVisit(g, pick, k).atariMoves[|g.atariMoves|],
                        BEffectVisit(g, pick, k).atariLiberties[|g.atariMoves|])
  {
    WhiteScan(b, R, k);
    var scan := Count(b, R, k, WHITE);
    PiecesInside(b, R, EMPTY, scan.liberties);
    var m := pick(scan.liberties);
    Singleton(scan.liberties, m);
    LookaheadCountsLiberties(b, R, m);
    var r := BEffectVisit(g, pick, k);
    assert r.atariMoves == g.atariMoves + [m];
    assert r.atariLiberties == g.atariLiberties + [Lookahead(b, R, m).liberties];
  }

  /** On a clean board the visit of any other square leaves the atari
      lists as they are. */
  lemma BEffectVisitSkips(b: seq<Cell>, R: int, g: Game, pick: set<int> -> int, k: nat)
    requires Clean(b, R) && PicksMember(pick) && k < |b|
    requires g.Valid() && g.cells == b && g.Range() == R
    requires !InAtari(b, R, k)
    ensures BEffectVisit(g, pick, k).atariMoves == g.atariMoves
    ensures BEffectVisit(g, pick, k).atariLiberties == g.atariLiberties
  {
    if b[k] == WHITE {
      WhiteScan(b, R, k);
    }
  }

  /** The `beffect` loop keeps a clean board. */
  lemma {:induction false} BEffectFromKeepsBoard(b: seq<Cell>, R: int, g: Game, pick: set<int> -> int, k: nat)
    requires Clean(b, R) && PicksMember(pick)
    requires g.Valid() && g.cells == b && g.Range() == R
    ensures BEffectFrom(g, pick, k).cells == b
    decreases |b| - k, 1
  {
    if k < |b| {
      BEffectStepKeepsBoard(b, R, g, pick, k);
    }
  }

  /** The inductive step of `BEffectFromKeepsBoard`. */
  lemma {:induction false} BEffectStepKeepsBoard(b: seq<Cell>, R: int, g: Game, pick: set<int> -> int, k: nat)
    requires Clean(b, R) && PicksMember(pick) && k < |b|
    requires g.Valid() && g.cells == b && g.Range() == R
    ensures BEffectFrom(g, pick, k).cells == b
    decreases |b| - k, 0
  {
    var next := BEffectVisit(g, pick, k);
    BEffectVisitKeepsBoard(b, R, g, pick, k);
    BEffectFromKeepsBoard(b, R, next, pick, k + 1);
  }

  /** Every entry the `beffect` loop appends to the atari lists on a clean
      board is an atari rescue. */
  lemma {:induction false} BEffectFromSound(b: seq<Cell>, R: int, g: Game, pick: set<int> -> int, k: nat)
    requires Clean(b, R) && PicksMember(pick)
    requires g.Valid() && g.cells == b && g.Range() == R
    ensures forall j :: |g.atariMoves| <= j < |BEffectFrom(g, pick, k).atariMoves| ==>
              AtariRescue(b, R, BEffectFrom(g, pick, k).atariMoves[j], BEffectFrom(g, pick, k).atariLiberties[j])
    decreases |b| - k, 1
  {
    if k < |b| {
      BEffectStepSound(b, R, g, pick, k);
    }
  }

  /** The inductive step of `BEffectFromSound`. */
  lemma {:induction false} BEffectStepSound(b: seq<Cell>, R: int, g: Game, pick: set<int> -> int, k: nat)
    requires Clean(b, R) && PicksMember(pick) && k < |b|
    requires g.Valid() && g.cells == b && g.Range() == R
    ensures forall j :: |g.atariMoves| <= j < |BEffectFrom(g, pick, k).atariMoves| ==>
              AtariRescue(b, R, BEffectFrom(g, pick, k).atariMoves[j], BEffectFrom(g, pick, k).atariLiberties[j])
    decreases |b| - k, 0
  {
    var next := BEffectVisit(g, pick, k);
    BEffectVisitKeepsBoard(b, R, g, pick, k);
    BEffectFromSound(b, R, next, pick, k + 1);
    var r := BEffectFrom(next, pick, k + 1);
    assert BEffectFrom(g, pick, k) == r;
    if InAtari(b, R, k) {
      BEffectVisitRecords(b, R, g, pick, k);
    } else {
      BEffectVisitSkips(b, R, g, pick, k);
    }
    RescuesCompose(b, R, g, next, r);
  }

  /** Entries appended in two steps, each an atari rescue. */
  lemma RescuesCompose(b: seq<Cell>, R: int, g: Game, h: Game, r: Game)
    requires h.Valid() && r.Valid() && Extends(r, h)
    requires forall j :: |h.atariMoves| <= j < |r.atariMoves| ==>
               AtariRescue(b, R, r.atariMoves[j], r.atariLiberties[j])
    requires || (h.atariMoves == g.atariMoves && h.atariLiberties == g.atariLiberties)
             || (&& |h.atariMoves| == |g.atariMoves| + 1
                 && AtariRescue(b, R, h.atariMoves[|g.atariMoves|], h.atariLiberties[|g.atariMoves|]))
    ensures forall j :: |g.atariMoves| <= j < |r.atariMoves| ==>
              AtariRescue(b, R, r.atariMoves[j], r.atariLiberties[j])
  {
    var i := |g.atariMoves|;
    if |h.atariMoves| == i + 1 {
      assert r.atariMoves[i] == h.atariMoves[i];
      assert r.atariLiberties[i] == h.atariLiberties[i];
    }
  }

  /** The game `g` holds the board `b` of range `R`. */
  ghost predicate OnBoard(b: seq<Cell>, R: int, g: Game) {
    g.Valid() && g.cells == b && g.Range() == R
  }

  /** The `beffect` loop runs on the clean board `b` of range `R`. */
  ghost predicate Scanning(b: seq<Cell>, R: int, g: Game, pick: set<int> -> int) {
    Clean(b, R) && PicksMember(pick) && OnBoard(b, R, g)
  }

  /** The game after the visits of squares `k` to `s - 1`. */
  ghost function BEffectUpTo(g: Game, pick: set<int> -> int, k: nat, s: nat): (h: Game)
    requires g.Valid() && PicksMember(pick) && k <= s <= |g.cells|
    ensures h.Valid() && |h.cells| == |g.cells| && Extends(h, g)
    decreases s - k
  {
    if k == s then
      g
    else
      var next := BEffectVisit(g, pick, k);
      var h := BEffectUpTo(next, pick, k + 1, s);
      ExtendsTransitive(h, next, g);
      h
  }

  /** On a clean board the visits of squares `k` to `s - 1` keep the board,
      and the loop from `k` is the loop from `s` after them. */
  lemma {:induction false} BEffectUpToFacts(b: seq<Cell>, R: int, g: Game, pick: set<int> -> int, k: nat, s: nat)
    requires Scanning(b, R, g, pick) && k <= s <= |b|
    ensures OnBoard(b, R, BEffectUpTo(g, pick, k, s))
    ensures BEffectFrom(g, pick, k) == BEffectFrom(BEffectUpTo(g, pick, k, s), pick, s)
    decreases s - k, 1
  {
    if k < s {
      BEffectUpToStep(b, R, g, pick, k, s);
    }
  }

  /** The inductive step of `BEffectUpToFacts`. */
  lemma {:induction false} BEffectUpToStep(b: seq<Cell>, R: int, g: Game, pick: set<int> -> int, k: nat, s: nat)
    requires Scanning(b, R, g, pick) && k < s <= |b|
    ensures OnBoard(b, R, BEffectUpTo(g, pick, k, s))
    ensures BEffectFrom(g, pick, k) == BEffectFrom(BEffectUpTo(g, pick, k, s), pick, s)
    decreases s - k, 0
  {
    var next := BEffectVisit(g, pick, k);
    BEffectStepFacts(b, R, g, pick, k);
    assert Scanning(b, R, next, pick);
    BEffectUpToFacts(b, R, next, pick, k + 1, s);
    var h := BEffectUpTo(next, pick, k + 1, s);
    assert BEffectUpTo(g, pick, k, s) == h;
    assert BEffectFrom(g, pick, k) == BEffectFrom(h, pick, s);
  }

  /** Every white stone in atari at or after `k` has the only liberty `m`
      of its group appended by the `beffect` loop. */
  lemma BEffectFromComplete(b: seq<Cell>, R: int, g: Game, pick: set<int> -> int, k: nat, s: int, m: int)
    requires Scanning(b, R, g, pick)
    requires k <= s && InAtari(b, R, s) && LibertiesOf(b, R, Group(b, R, WHITE, s)) == {m}
    ensures m in BEffectFrom(g, pick, k).atariMoves[|g.atariMoves|..]
  {
    var h := BEffectUpTo(g, pick, k, s);
    BEffectUpToFacts(b, R, g, pick, k, s);
    BEffectRecordsHere(b, R, h, pick, s, m);
    WitnessCarries(g, h, BEffectFrom(g, pick, k), m);
  }

  /** The visit of a white stone in atari records its liberty. */
  lemma BEffectRecordsHere(b: seq<Cell>, R: int, g: Game, pick: set<int> -> int, k: nat, m: int)
    requires Scanning(b, R, g, pick)
    requires InAtari(b, R, k) && LibertiesOf(b, R, Group(b, R, WHITE, k)) == {m}
    ensures m in BEffectFrom(g, pick, k).atariMoves[|g.atariMoves|..]
  {
    var next := BEffectVisit(g, pick, k);
    BEffectVisitKeepsBoard(b, R, g, pick, k);
    var r := BEffectFrom(next, pick, k + 1);
    assert BEffectFrom(g, pick, k) == r;
    BEffectVisitRecords(b, R, g, pick, k);
    var i := |g.atariMoves|;
    assert r.atariMoves[i] == next.atariMoves[i];
    assert r.atariMoves[i..][0] == m;
  }

  /** One step of the `beffect` loop on a clean board: the visit keeps the
      board and extends the atari lists, and the loop goes on from it. */
  lemma BEffectStepFacts(b: seq<Cell>, R: int, g: Game, pick: set<int> -> int, k: nat)
    requires Scanning(b, R, g, pick) && k < |b|
    ensures BEffectVisit(g, pick, k).Valid() && BEffectVisit(g, pick, k).cells == b
    ensures BEffectVisit(g, pick, k).Range() == R && Extends(BEffectVisit(g, pick, k), g)
    ensures BEffectFrom(g, pick, k) == BEffectFrom(BEffectVisit(g, pick, k), pick, k + 1)
  {
    BEffectVisitKeepsBoard(b, R, g, pick, k);
  }

  /** A move found past the atari lists of `next` lies past those of any
      game `next` extends. */
  lemma WitnessCarries(g: Game, next: Game, r: Game, m: int)
    requires Extends(next, g) && |next.atariMoves| <= |r.atariMoves|
    requires m in r.atariMoves[|next.atariMoves|..]
    ensures m in r.atariMoves[|g.atariMoves|..]
  {
    var later := r.atariMoves[|next.atariMoves|..];
    var i :| 0 <= i < |later| && later[i] == m;
    var d := |next.atariMoves| - |g.atariMoves|;
    assert r.atariMoves[|g.atariMoves|..][i + d] == m;
  }

  /** On a clean board the `beffect` loop keeps the board, appends to the
      atari lists exactly when some white group is in atari, and appends
      only atari rescues. */
  lemma BEffectScanRecords(g: Game, pick: set<int> -> int)
    requires g.Valid() && Clean(g.cells, g.Range()) && PicksMember(pick)
    ensures BEffectFrom(g, pick, 0).cells == g.cells
    ensures |BEffectFrom(g, pick, 0).atariMoves| > |g.atariMoves| <==> exists s :: InAtari(g.cells, g.Range(), s)
    ensures forall j :: |g.atariMoves| <= j < |BEffectFrom(g, pick, 0).atariMoves| ==>
              AtariRescue(g.cells, g.Range(), BEffectFrom(g, pick, 0).atariMoves[j], BEffectFrom(g, pick, 0).atariLiberties[j])
  {
    var b, R := g.cells, g.Range();
    BEffectFromKeepsBoard(b, R, g, pick, 0);
    BEffectFromSound(b, R, g, pick, 0);
    var r := BEffectFrom(g, pick, 0);
    if exists s :: InAtari(b, R, s) {
      var s :| InAtari(b, R, s);
      var m :| m in LibertiesOf(b, R, Group(b, R, WHITE, s));
      Singleton(LibertiesOf(b, R, Group(b, R, WHITE, s)), m);
      BEffectFromComplete(b, R, g, pick, 0, s, m);
    }
    if |r.atariMoves| > |g.atariMoves| {
      var i := |g.atariMoves|;
      assert AtariRescue(g.cells, g.Range(), r.atariMoves[i], r.atariLiberties[i]);
    }
  }

  /** On a clean board with no atari recorded yet, `beffect` with the
      intended atari comparison keeps the board and records an atari
      exactly when some white group is in atari; it then answers the only
      liberty of a white group in atari, one whose lookahead count is
      largest among those recorded. */
  lemma BEffectAnswersAtari(g: Game, pick: set<int> -> int)
    requires g.Valid() && Clean(g.cells, g.Range()) && PicksMember(pick)
    requires g.atariMoves == []
    ensures BEffect(g, pick).cells == g.cells
    ensures BEffect(g, pick).atariMoves != [] <==> exists s :: InAtari(g.cells, g.Range(), s)
    ensures BEffect(g, pick).atariMoves != [] ==>
              && BEffect(g, pick).bestMove.Some?
              && AtariRescue(g.cells, g.Range(), BEffect(g, pick).bestMove.value, BEffect(g, pick).bestLiberties)
              && forall j :: 0 <= j < |BEffect(g, pick).atariLiberties| ==>
                   BEffect(g, pick).atariLiberties[j] <= BEffect(g, pick).bestLiberties
  {
    var scanned := BEffectFrom(g, pick, 0);
    BEffectScanRecords(g, pick);
    if scanned.atariMoves != [] {
      SelectedIsRescue(g.cells, g.Range(), scanned);
    }
    assert BEffect(g, pick) == SelectAtari(scanned);
  }

  /** When every recorded entry is an atari rescue, so is the selected
      one. */
  lemma SelectedIsRescue(b: seq<Cell>, R: int, g: Game)
    requires g.Valid() && g.atariMoves != []
    requires forall j :: 0 <= j < |g.atariMoves| ==> AtariRescue(b, R, g.atariMoves[j], g.atariLiberties[j])
    ensures SelectAtari(g).bestMove.Some?
    ensures AtariRescue(b, R, SelectAtari(g).bestMove.value, SelectAtari(g).bestLiberties)
  {
    var r := SelectAtari(g);
    var k :| 0 <= k < |g.atariMoves|
      && r.bestMove == Some(g.atariMoves[k])
      && r.bestLiberties == g.atariLiberties[k];
    assert AtariRescue(b, R, g.atariMoves[k], g.atariLiberties[k]);
  }

  // ---------------------------------------------------------------------
  // The move `beffect` offers outside an atari

  /** `r` keeps the best move of `g`, or holds one that `eval_liberty`
      accepted on the board `b`: an empty playable square where the
      lookahead leaves black at least two liberties, a liberty of a white
      group of `b` whose liberty count it records, two or more. */
  ghost predicate Offers(b: seq<Cell>, R: int, g: Game, r: Game)
    requires Framed(b, R)
  {
    || (r.bestMove == g.bestMove && r.bestLiberties == g.bestLiberties)
    || (&& r.bestMove.Some? && Inside(R, r.bestMove.value) && b[r.bestMove.value] == EMPTY
        && Lookahead(b, R, r.bestMove.value).liberties >= 2 && r.bestLiberties >= 2
        && LibertyOfGroup(b, R, WHITE, r.bestMove.value, r.bestLiberties))
  }

  /** On a clean board the visit of a white stone whose group has two or
      more liberties offers `eval_liberty` one of exactly that group's
      liberties. */
  lemma BEffectVisitEvaluates(b: seq<Cell>, R: int, g: Game, pick: set<int> -> int, k: nat)
    requires Scanning(b, R, g, pick) && k < |b|
    ensures b[k] == WHITE ==> forall l :: l in LibertiesOf(b, R, Group(b, R, WHITE, k)) ==> Inside(R, l)
    ensures b[k] == WHITE && |LibertiesOf(b, R, Group(b, R, WHITE, k))| >= 2 ==>
              && pick(LibertiesOf(b, R, Group(b, R, WHITE, k))) in LibertiesOf(b, R, Group(b, R, WHITE, k))
              && BEffectVisit(g, pick, k)
                 == EvalLiberty(g, pick(LibertiesOf(b, R, Group(b, R, WHITE, k))), LibertiesOf(b, R, Group(b, R, WHITE, k)))
  {
    if b[k] == WHITE {
      WhiteScan(b, R, k);
      ScanFits(b, R, k, WHITE);
      assert g.(cells := Restore(Count(b, R, k, WHITE).board)) == g;
    }
  }

  /** A visit of the `beffect` loop that records no atari only offers
      moves `eval_liberty` accepted. */
  lemma BEffectVisitOffers(b: seq<Cell>, R: int, g: Game, pick: set<int> -> int, k: nat)
    requires Scanning(b, R, g, pick) && k < |b|
    requires |BEffectVisit(g, pick, k).atariMoves| == |g.atariMoves|
    ensures Offers(b, R, g, BEffectVisit(g, pick, k))
  {
    if b[k] == WHITE {
      WhiteScan(b, R, k);
      ScanFits(b, R, k, WHITE);
      var h := BEffectVisit(g, pick, k);
      if h.bestMove != g.bestMove || h.bestLiberties != g.bestLiberties {
        assert LibertyOfGroup(b, R, WHITE, h.bestMove.value, h.bestLiberties);
      }
    }
  }

  /** The `beffect` loop from `k` on, when it records no atari, only
      offers moves `eval_liberty` accepted. */
  lemma {:induction false} BEffectFromOffers(b: seq<Cell>, R: int, g: Game, pick: set<int> -> int, k: nat)
    requires Scanning(b, R, g, pick)
    requires |BEffectFrom(g, pick, k).atariMoves| == |g.atariMoves|
    ensures Offers(b, R, g, BEffectFrom(g, pick, k))
    decreases |b| - k, 1
  {
    if k < |b| {
      BEffectStepOffers(b, R, g, pick, k);
    }
  }

  /** The step of `BEffectFromOffers`. */
  lemma {:induction false} BEffectStepOffers(b: seq<Cell>, R: int, g: Game, pick: set<int> -> int, k: nat)
    requires Scanning(b, R, g, pick) && k < |b|
    requires |BEffectFrom(g, pick, k).atariMoves| == |g.atariMoves|
    ensures Offers(b, R, g, BEffectFrom(g, pick, k))
    decreases |b| - k, 0
  {
    var h := BEffectVisit(g, pick, k);
    BEffectStepFacts(b, R, g, pick, k);
    assert Scanning(b, R, h, pick);
    var r := BEffectFrom(h, pick, k + 1);
    assert BEffectFrom(g, pick, k) == r;
    assert |h.atariMoves| == |g.atariMoves|;
    BEffectVisitOffers(b, R, g, pick, k);
    BEffectFromOffers(b, R, h, pick, k + 1);
  }

  /** On a clean board, when the `beffect` loop records no atari, a best
      move it sets is an empty playable square where the lookahead leaves
      black at least two liberties, and a liberty of a white group of the
      board whose liberty count, two or more, becomes `best_liberties`. */
  lemma BEffectOffersOutsideAtari(g: Game, pick: set<int> -> int)
    requires g.Valid() && Clean(g.cells, g.Range()) && PicksMember(pick)
    ensures && |BEffectFrom(g, pick, 0).atariMoves| == |g.atariMoves|
            && (BEffectFrom(g, pick, 0).bestMove != g.bestMove || BEffectFrom(g, pick, 0).bestLiberties != g.bestLiberties)
            ==>
              && BEffectFrom(g, pick, 0).bestMove.Some?
              && Inside(g.Range(), BEffectFrom(g, pick, 0).bestMove.value)
              && g.cells[BEffectFrom(g, pick, 0).bestMove.value] == EMPTY
              && Lookahead(g.cells, g.Range(), BEffectFrom(g, pick, 0).bestMove.value).liberties >= 2
              && BEffectFrom(g, pick, 0).bestLiberties >= 2
              && LibertyOfGroup(g.cells, g.Range(), WHITE, BEffectFrom(g, pick, 0).bestMove.value,
                                BEffectFrom(g, pick, 0).bestLiberties)
  {
    if |BEffectFrom(g, pick, 0).atariMoves| == |g.atariMoves| {
      BEffectFromOffers(g.cells, g.Range(), g, pick, 0);
    }
  }
}

=== FILE: capture.dfy ===
/**
 * What `weffect` does to the board: on a clean board it removes exactly the
 * black groups that have no liberty, leaves every other square as it was,
 * and afterwards every black group on the board has a liberty.
 *
 * The proof follows the loop: after the squares below k have been visited,
 * the board is the starting board with the dead groups of the black stones
 * below k cleared (`DeadBelow`). Clearing such a set never changes the group
 * or the liberties of a black stone outside it, so later visits see the
 * groups of the starting board.
 */
module Capture {
  import opened Cells
  import opened Geometry
  import opened Grid
  import opened Scanner
  import opened Engine

  /** The black stones whose group has no liberty. */
  ghost function DeadStones(b: seq<Cell>, R: int): set<int> {
    set i | 0 <= i < |b| && b[i] == BLACK && LibertiesOf(b, R, Group(b, R, BLACK, i)) == {}
  }

  /** The squares of the dead groups that contain a stone below `k`. */
  ghost function DeadBelow(b: seq<Cell>, R: int, k: int): set<int> {
    set i | 0 <= i < |b| && InDeadGroupBelow(b, R, k, i)
  }

  /** `i` belongs to the group of a dead stone below `k`. */
  ghost predicate InDeadGroupBelow(b: seq<Cell>, R: int, k: int, i: int) {
    exists j :: 0 <= j < k && j in DeadStones(b, R) && i in Group(b, R, BLACK, j)
  }

  /** `X` is closed under steps to adjacent squares of `T`. */
  ghost predicate ClosedIn(X: set<int>, T: set<int>, R: int) {
    forall x, y :: x in X && Adjacent(R, x, y) && y in T ==> y in X
  }

  /** On a clean board the black stones a scan takes are the black pieces. */
  lemma BlackStones(b: seq<Cell>, R: int)
    requires Clean(b, R)
    ensures forall i :: 0 <= i < |b| ==> (i in Stones(b, BLACK) <==> b[i] == BLACK)
  {
    forall i | 0 <= i < |b|
      ensures i in Stones(b, BLACK) <==> b[i] == BLACK
    {
      if !OnRing(R, i) {
        assert b[i] == EMPTY || b[i] == BLACK || b[i] == WHITE;
      }
    }
  }

  /** A group lies among the stones and is closed under steps over them. */
  lemma GroupClosed(b: seq<Cell>, R: int, s: int)
    ensures Group(b, R, BLACK, s) <= Stones(b, BLACK)
    ensures ClosedIn(Group(b, R, BLACK, s), Stones(b, BLACK), R)
  {
    var T := Stones(b, BLACK);
    var G := Group(b, R, BLACK, s);
    forall t | t in G
      ensures t in T
    {
      ReachableEnds(T, R, s, t);
    }
    forall x, y | x in G && Adjacent(R, x, y) && y in T
      ensures y in G
    {
      ReachableAppend(T, R, s, x, y);
    }
  }

  /** The group of a member lies inside the group. */
  lemma GroupOfMember(b: seq<Cell>, R: int, j: int, i: int)
    requires i in Group(b, R, BLACK, j)
    ensures Group(b, R, BLACK, i) <= Group(b, R, BLACK, j)
  {
    var T := Stones(b, BLACK);
    forall t | t in Group(b, R, BLACK, i)
      ensures t in Group(b, R, BLACK, j)
    {
      ReachableTrans(T, R, j, i, t);
    }
  }

  /** Every stone of a dead group is dead. */
  lemma DeadGroupIsDead(b: seq<Cell>, R: int, j: int, i: int)
    requires Clean(b, R) && j in DeadStones(b, R) && i in Group(b, R, BLACK, j)
    ensures i in DeadStones(b, R)
  {
    GroupOfMember(b, R, j, i);
    GroupClosed(b, R, j);
    BlackStones(b, R);
    var Gi, Gj := Group(b, R, BLACK, i), Group(b, R, BLACK, j);
    forall y | y in LibertiesOf(b, R, Gi)
      ensures y in LibertiesOf(b, R, Gj)
    {
    }
  }

  /** The dead groups below `k` are black stones, dead, and closed. */
  lemma DeadBelowShape(b: seq<Cell>, R: int, k: int)
    requires Clean(b, R)
    ensures DeadBelow(b, R, k) <= DeadStones(b, R)
    ensures DeadBelow(b, R, k) <= Stones(b, BLACK)
    ensures ClosedIn(DeadBelow(b, R, k), Stones(b, BLACK), R)
  {
    var X := DeadBelow(b, R, k);
    var T := Stones(b, BLACK);
    BlackStones(b, R);
    forall i | i in X
      ensures i in DeadStones(b, R)
    {
      var j :| 0 <= j < k && j in DeadStones(b, R) && i in Group(b, R, BLACK, j);
      DeadGroupIsDead(b, R, j, i);
    }
    forall x, y | x in X && Adjacent(R, x, y) && y in T
      ensures y in X
    {
      var j :| 0 <= j < k && j in DeadStones(b, R) && x in Group(b, R, BLACK, j);
      GroupClosed(b, R, j);
    }
  }

  /** Once every square is visited, the dead groups below are all dead
      stones. */
  lemma DeadBelowAll(b: seq<Cell>, R: int)
    requires Clean(b, R)
    ensures DeadBelow(b, R, |b|) == DeadStones(b, R)
  {
    DeadBelowShape(b, R, |b|);
    forall i | i in DeadStones(b, R)
      ensures i in DeadBelow(b, R, |b|)
    {
      ReachableRefl(Stones(b, BLACK), R, i);
      assert i in Group(b, R, BLACK, i);
    }
  }

  /** A walk that starts outside a closed set never enters it. */
  lemma {:induction false} PathAvoids(X: set<int>, T: set<int>, R: int, p: seq<int>)
    requires IsPathIn(T, R, p) && p[0] !in X && ClosedIn(X, T, R)
    ensures forall k :: 0 <= k < |p| ==> p[k] !in X
  {
    var k := 0;
    while k < |p| - 1
      invariant 0 <= k < |p|
      invariant forall j :: 0 <= j <= k ==> p[j] !in X
    {
      AdjacentSymmetric(R, p[k], p[k + 1]);
      assert p[k] in T;
      k := k + 1;
    }
  }

  /** Clearing a closed set of black stones removes exactly those stones
      from the stones a scan for black takes. */
  lemma ClearedStones(b: seq<Cell>, R: int, X: set<int>)
    requires Clean(b, R) && X <= Stones(b, BLACK)
    ensures Stones(ClearGroup(b, X), BLACK) == Stones(b, BLACK) - X
  {
  }

  /** Clearing a closed set of black stones leaves the group of a black
      stone outside it, and that group's liberties, as they were. */
  lemma ClearKeepsGroup(b: seq<Cell>, R: int, X: set<int>, s: int)
    requires Clean(b, R) && X <= Stones(b, BLACK) && ClosedIn(X, Stones(b, BLACK), R)
    requires s in Stones(b, BLACK) && s !in X
    ensures Group(b, R, BLACK, s) !! X
    ensures Group(ClearGroup(b, X), R, BLACK, s) == Group(b, R, BLACK, s)
    ensures LibertiesOf(ClearGroup(b, X), R, Group(b, R, BLACK, s)) == LibertiesOf(b, R, Group(b, R, BLACK, s))
  {
    var c := ClearGroup(b, X);
    var T := Stones(b, BLACK);
    var G := Group(b, R, BLACK, s);
    ClearedStones(b, R, X);
    forall t | t in G
      ensures t !in X && Reachable(T - X, R, s, t)
    {
      var p :| IsPathIn(T, R, p) && p[0] == s && p[|p| - 1] == t;
      PathAvoids(X, T, R, p);
      assert IsPathIn(T - X, R, p);
    }
    forall t | t in Group(c, R, BLACK, s)
      ensures t in G
    {
      ReachableMono(T - X, T, R, s, t);
    }
    GroupClosed(b, R, s);
    forall y | y in LibertiesOf(c, R, G)
      ensures y in LibertiesOf(b, R, G)
    {
      var x :| x in G && Adjacent(R, x, y);
      AdjacentSymmetric(R, x, y);
    }
  }

  /** The facts every visit below relies on: the board with the dead
      groups below `k` cleared is clean, and a scan of a black stone on it
      finds the group and the liberties that stone has on the starting
      board. */
  lemma ClearedBoard(b: seq<Cell>, R: int, k: nat)
    requires Clean(b, R)
    ensures Clean(ClearGroup(b, DeadBelow(b, R, k)), R)
    ensures forall i :: 0 <= i < |b| && i in DeadBelow(b, R, k) ==> b[i] == BLACK
  {
    DeadBelowShape(b, R, k);
    BlackStones(b, R);
    ClearGroupKeepsClean(b, R, DeadBelow(b, R, k));
  }

  lemma ScanOnCleared(b: seq<Cell>, R: int, k: nat)
    requires Clean(b, R) && k < |b|
    requires ClearGroup(b, DeadBelow(b, R, k))[k] == BLACK
    ensures var bk := ClearGroup(b, DeadBelow(b, R, k));
      var scan := Count(bk, R, k, BLACK);
      && b[k] == BLACK && k !in DeadBelow(b, R, k)
      && scan.group == Group(b, R, BLACK, k)
      && scan.liberties == LibertiesOf(b, R, Group(b, R, BLACK, k))
      && Restore(scan.board) == bk
  {
    var X := DeadBelow(b, R, k);
    var bk := ClearGroup(b, X);
    DeadBelowShape(b, R, k);
    BlackStones(b, R);
    ClearedBoard(b, R, k);
    CountFindsGroup(bk, R, k, BLACK);
    ClearKeepsGroup(b, R, X, k);
    RestoreAfterCount(bk, R, k, BLACK);
    RestoreClean(bk, R);
  }

  /** The visit of a dead black stone clears its group. */
  lemma VisitDeadStone(b: seq<Cell>, R: int, k: nat)
    requires Clean(b, R) && k < |b| && k in DeadStones(b, R) && k !in DeadBelow(b, R, k)
    ensures DeadBelow(b, R, k + 1) == DeadBelow(b, R, k) + Group(b, R, BLACK, k)
    ensures ClearGroup(ClearGroup(b, DeadBelow(b, R, k)), Group(b, R, BLACK, k))
            == ClearGroup(b, DeadBelow(b, R, k + 1))
  {
    var X, G := DeadBelow(b, R, k), Group(b, R, BLACK, k);
    forall i | i in G
      ensures i in DeadBelow(b, R, k + 1)
    {
      assert InDeadGroupBelow(b, R, k + 1, i);
    }
    forall i | i in DeadBelow(b, R, k + 1)
      ensures i in X + G
    {
      var j :| 0 <= j < k + 1 && j in DeadStones(b, R) && i in Group(b, R, BLACK, j);
      if j < k {
        assert InDeadGroupBelow(b, R, k, i);
      }
    }
  }

  /** Visiting a live stone, or a stone already cleared, clears nothing. */
  lemma VisitKeepsDeadBelow(b: seq<Cell>, R: int, k: nat)
    requires Clean(b, R) && k < |b|
    requires k !in DeadStones(b, R) || k in DeadBelow(b, R, k)
    ensures DeadBelow(b, R, k + 1) == DeadBelow(b, R, k)
  {
    forall i | i in DeadBelow(b, R, k + 1)
      ensures i in DeadBelow(b, R, k)
    {
      var j :| 0 <= j < k + 1 && j in DeadStones(b, R) && i in Group(b, R, BLACK, j);
      if j == k {
        var j' :| 0 <= j' < k && j' in DeadStones(b, R) && k in Group(b, R, BLACK, j');
        GroupOfMember(b, R, j', k);
        assert InDeadGroupBelow(b, R, k, i);
      } else {
        assert InDeadGroupBelow(b, R, k, i);
      }
    }
    forall i | i in DeadBelow(b, R, k)
      ensures i in DeadBelow(b, R, k + 1)
    {
      var j :| 0 <= j < k && j in DeadStones(b, R) && i in Group(b, R, BLACK, j);
      assert InDeadGroupBelow(b, R, k + 1, i);
    }
  }

  /** On a clean board one visit of the `weffect` loop clears the scanned
      group of a black stone without a liberty and leaves every other board
      as it is. */
  lemma VisitCells(g: Game, pick: set<int> -> int, k: nat)
    requires g.Valid() && Clean(g.cells, g.Range()) && PicksMember(pick) && k < |g.cells|
    ensures var scan := Count(g.cells, g.Range(), k, BLACK);
      WEffectVisit(g, pick, k).cells
        == if g.cells[k] == BLACK && scan.liberties == {} then ClearGroup(g.cells, scan.group) else g.cells
  {
    if g.cells[k] == BLACK {
      RestoreAfterCount(g.cells, g.Range(), k, BLACK);
      RestoreClean(g.cells, g.Range());
    }
  }

  /** One visit of the `weffect` loop on the board with the dead groups
      below `k` cleared clears the dead group of `k`, if there is one. */
  lemma WEffectVisitClears(b: seq<Cell>, R: int, g: Game, pick: set<int> -> int, k: nat)
    requires Clean(b, R) && k < |b| && PicksMember(pick)
    requires g.Valid() && g.Range() == R && g.cells == ClearGroup(b, DeadBelow(b, R, k))
    ensures WEffectVisit(g, pick, k).cells == ClearGroup(b, DeadBelow(b, R, k + 1))
  {
    var bk := g.cells;
    ClearedBoard(b, R, k);
    VisitCells(g, pick, k);
    if bk[k] == BLACK {
      ScanOnCleared(b, R, k);
      var scan := Count(bk, R, k, BLACK);
      if scan.liberties == {} {
        VisitDeadStone(b, R, k);
      } else {
        VisitKeepsDeadBelow(b, R, k);
      }
    } else {
      if k in DeadStones(b, R) {
        assert k in DeadBelow(b, R, k);
      }
      VisitKeepsDeadBelow(b, R, k);
    }
  }

  /** The `weffect` loop from `k` on finishes the clearing of every dead
      group. */
  lemma {:induction false} WEffectFromClears(b: seq<Cell>, R: int, g: Game, pick: set<int> -> int, k: nat)
    requires Clean(b, R) && k <= |b| && PicksMember(pick)
    requires g.Valid() && g.Range() == R && g.cells == ClearGroup(b, DeadBelow(b, R, k))
    ensures WEffectFrom(g, pick, k).cells == ClearGroup(b, DeadStones(b, R))
    decreases |b| - k, 1
  {
    if k == |b| {
      DeadBelowAll(b, R);
      assert g.cells == ClearGroup(b, DeadStones(b, R));
      assert WEffectFrom(g, pick, k) == g;
    } else {
      WEffectStepClears(b, R, g, pick, k);
    }
  }

  /** The step of `WEffectFromClears`: visit `k`, then finish from `k + 1`. */
  lemma {:induction false} WEffectStepClears(b: seq<Cell>, R: int, g: Game, pick: set<int> -> int, k: nat)
    requires Clean(b, R) && k < |b| && PicksMember(pick)
    requires g.Valid() && g.Range() == R && g.cells == ClearGroup(b, DeadBelow(b, R, k))
    ensures WEffectFrom(g, pick, k).cells == ClearGroup(b, DeadStones(b, R))
    decreases |b| - k, 0
  {
    var h := WEffectVisit(g, pick, k);
    WEffectVisitClears(b, R, g, pick, k);
    assert |h.cells| == |b|;
    WEffectFromClears(b, R, h, pick, k + 1);
    assert WEffectFrom(g, pick, k) == WEffectFrom(h, pick, k + 1);
  }

  /** On a clean board `weffect` removes exactly the black groups without a
      liberty: every other square keeps its piece, white stones included,
      the board stays clean, and every black group left has a liberty. */
  lemma WEffectCaptures(g: Game, pick: set<int> -> int)
    requires g.Valid() && Clean(g.cells, g.Range()) && PicksMember(pick)
    ensures var r := WEffect(g, pick);
      && Clean(r.cells, g.Range())
      && (forall i :: 0 <= i < |g.cells| ==>
            r.cells[i] == (if i in DeadStones(g.cells, g.Range()) then EMPTY else g.cells[i]))
      && (forall s :: 0 <= s < |r.cells| && r.cells[s] == BLACK ==>
            LibertiesOf(r.cells, g.Range(), Group(r.cells, g.Range(), BLACK, s)) != {})
  {
    var b, R := g.cells, g.Range();
    var D := DeadStones(b, R);
    assert DeadBelow(b, R, 0) == {};
    assert ClearGroup(b, {}) == b;
    WEffectFromClears(b, R, g, pick, 0);
    var r := WEffect(g, pick);
    DeadBelowAll(b, R);
    DeadBelowShape(b, R, |b|);
    BlackStones(b, R);
    ClearGroupKeepsClean(b, R, D);
    forall s | 0 <= s < |r.cells| && r.cells[s] == BLACK
      ensures LibertiesOf(r.cells, R, Group(r.cells, R, BLACK, s)) != {}
    {
      assert s !in D;
      ClearKeepsGroup(b, R, D, s);
    }
  }

  // ---------------------------------------------------------------------
  // The move `weffect` offers

  /** `r` keeps the best move of `g`, or holds a new one: a playable square,
      empty on the board of `r`, with no neighbour on the ring, and a
      liberty of a black group of the starting board `b` whose liberty
      count, one or two, it records. */
  ghost predicate Defends(b: seq<Cell>, g: Game, r: Game, R: int)
    requires R > 0
  {
    || (r.bestMove == g.bestMove && r.bestLiberties == g.bestLiberties)
    || (&& r.bestMove.Some? && Inside(R, r.bestMove.value) && r.bestMove.value < |r.cells|
        && r.cells[r.bestMove.value] == EMPTY && 1 <= r.bestLiberties <= 2
        && AwayFromRing(R, r.bestMove.value)
        && LibertyOfGroup(b, R, BLACK, r.bestMove.value, r.bestLiberties))
  }

  /** A best move one visit of the `weffect` loop sets is an off-edge
      liberty of the visited group, which has the same stones and liberties
      on the starting board `b`. */
  lemma WEffectVisitChoosesFor(b: seq<Cell>, R: int, g: Game, pick: set<int> -> int, k: nat)
    requires Clean(b, R) && k < |b| && PicksMember(pick)
    requires g.Valid() && g.Range() == R && g.cells == ClearGroup(b, DeadBelow(b, R, k))
    ensures WEffectVisit(g, pick, k).bestMove != g.bestMove
            || WEffectVisit(g, pick, k).bestLiberties != g.bestLiberties ==>
              && WEffectVisit(g, pick, k).bestMove.Some?
              && AwayFromRing(R, WEffectVisit(g, pick, k).bestMove.value)
              && LibertyOfGroup(b, R, BLACK, WEffectVisit(g, pick, k).bestMove.value,
                                WEffectVisit(g, pick, k).bestLiberties)
  {
    ClearedBoard(b, R, k);
    var h := WEffectVisit(g, pick, k);
    if g.cells[k] == BLACK && (h.bestMove != g.bestMove || h.bestLiberties != g.bestLiberties) {
      ScanOnCleared(b, R, k);
      var scan := Count(g.cells, R, k, BLACK);
      ScanFits(g.cells, R, k, BLACK);
      assert g.(cells := Restore(scan.board)) == g;
      assert h == WEffectExtend(g, pick, scan.liberties);
      var m := h.bestMove.value;
      assert m in OffEdgeLiberties(g.cells, R, scan.liberties);
      assert AwayFromRing(R, m);
      assert LibertyOfGroup(b, R, BLACK, m, h.bestLiberties);
    }
  }

  /** On the partly cleared board, the visit of a black stone whose group
      has a liberty hands `WEffectExtend` exactly the liberties that group
      has on the starting board `b`. */
  lemma WEffectVisitExtends(b: seq<Cell>, R: int, g: Game, pick: set<int> -> int, k: nat)
    requires Clean(b, R) && k < |b| && PicksMember(pick)
    requires g.Valid() && g.Range() == R && g.cells == ClearGroup(b, DeadBelow(b, R, k))
    ensures g.cells[k] == BLACK ==> forall l :: l in LibertiesOf(b, R, Group(b, R, BLACK, k)) ==> Inside(R, l)
    ensures g.cells[k] == BLACK && LibertiesOf(b, R, Group(b, R, BLACK, k)) != {} ==>
              WEffectVisit(g, pick, k) == WEffectExtend(g, pick, LibertiesOf(b, R, Group(b, R, BLACK, k)))
  {
    ClearedBoard(b, R, k);
    if g.cells[k] == BLACK {
      ScanOnCleared(b, R, k);
      var scan := Count(g.cells, R, k, BLACK);
      ScanFits(g.cells, R, k, BLACK);
      assert g.(cells := Restore(scan.board)) == g;
    }
  }

  /** One visit of the `weffect` loop keeps the board clean and every empty
      square empty, and any best move it sets is a defence. */
  lemma WEffectVisitDefends(b: seq<Cell>, R: int, g: Game, pick: set<int> -> int, k: nat)
    requires Clean(b, R) && k < |b| && PicksMember(pick)
    requires g.Valid() && g.Range() == R && g.cells == ClearGroup(b, DeadBelow(b, R, k))
    ensures Clean(WEffectVisit(g, pick, k).cells, R)
    ensures Empties(g.cells) <= Empties(WEffectVisit(g, pick, k).cells)
    ensures Defends(b, g, WEffectVisit(g, pick, k), R)
  {
    ClearedBoard(b, R, k);
    WEffectVisitKeeps(g, pick, k);
    WEffectVisitChoosesFor(b, R, g, pick, k);
  }

  /** One visit of the `weffect` loop on a clean board keeps it clean and
      keeps every empty square empty; a best move it sets is an empty
      playable square with one or two liberties recorded. */
  lemma WEffectVisitKeeps(g: Game, pick: set<int> -> int, k: nat)
    requires g.Valid() && Clean(g.cells, g.Range()) && PicksMember(pick) && k < |g.cells|
    ensures Clean(WEffectVisit(g, pick, k).cells, g.Range())
    ensures Empties(g.cells) <= Empties(WEffectVisit(g, pick, k).cells)
    ensures var h := WEffectVisit(g, pick, k);
      || (h.bestMove == g.bestMove && h.bestLiberties == g.bestLiberties)
      || (&& h.bestMove.Some? && Inside(g.Range(), h.bestMove.value) && h.bestMove.value < |h.cells|
          && h.cells[h.bestMove.value] == EMPTY && 1 <= h.bestLiberties <= 2)
  {
    var R := g.Range();
    VisitCells(g, pick, k);
    if g.cells[k] == BLACK {
      var scan := Count(g.cells, R, k, BLACK);
      ScanFits(g.cells, R, k, BLACK);
      RestoreAfterCount(g.cells, R, k, BLACK);
      RestoreClean(g.cells, R);
      if |scan.liberties| == 0 {
        ClearGroupKeepsClean(g.cells, R, scan.group);
      }
    }
  }

  /** Defences compose along the loop while empty squares stay empty. */
  lemma DefendsCompose(b: seq<Cell>, g: Game, h: Game, r: Game, R: int)
    requires R > 0 && Defends(b, g, h, R) && Defends(b, h, r, R)
    requires |h.cells| == |r.cells| && Empties(h.cells) <= Empties(r.cells)
    ensures Defends(b, g, r, R)
  {
    if r.bestMove == h.bestMove && r.bestLiberties == h.bestLiberties
       && !(h.bestMove == g.bestMove && h.bestLiberties == g.bestLiberties) {
      assert h.bestMove.value in Empties(h.cells);
    }
  }

  /** The `weffect` loop from `k` on keeps the board clean, keeps empty
      squares empty and only sets defences. */
  lemma {:induction false} WEffectFromDefends(b: seq<Cell>, R: int, g: Game, pick: set<int> -> int, k: nat)
    requires Clean(b, R) && k <= |b| && PicksMember(pick)
    requires g.Valid() && g.Range() == R && g.cells == ClearGroup(b, DeadBelow(b, R, k))
    ensures Clean(WEffectFrom(g, pick, k).cells, R)
    ensures Empties(g.cells) <= Empties(WEffectFrom(g, pick, k).cells)
    ensures Defends(b, g, WEffectFrom(g, pick, k), R)
    decreases |b| - k, 1
  {
    if k < |b| {
      WEffectStepDefends(b, R, g, pick, k);
    } else {
      ClearedBoard(b, R, k);
      assert WEffectFrom(g, pick, k) == g;
    }
  }

  /** The step of `WEffectFromDefends`. */
  lemma {:induction false} WEffectStepDefends(b: seq<Cell>, R: int, g: Game, pick: set<int> -> int, k: nat)
    requires Clean(b, R) && k < |b| && PicksMember(pick)
    requires g.Valid() && g.Range() == R && g.cells == ClearGroup(b, DeadBelow(b, R, k))
    ensures Clean(WEffectFrom(g, pick, k).cells, R)
    ensures Empties(g.cells) <= Empties(WEffectFrom(g, pick, k).cells)
    ensures Defends(b, g, WEffectFrom(g, pick, k), R)
    decreases |b| - k, 0
  {
    var h := WEffectVisit(g, pick, k);
    WEffectVisitDefends(b, R, g, pick, k);
    WEffectVisitClears(b, R, g, pick, k);
    assert h.Range() == R && |h.cells| == |b|;
    WEffectFromDefends(b, R, h, pick, k + 1);
    var r := WEffectFrom(h, pick, k + 1);
    assert WEffectFrom(g, pick, k) == r;
    DefendsCompose(b, g, h, r, R);
  }

  /** On a clean board, a best move `weffect` sets is a playable square that
      is still empty when the pass ends and has no neighbour on the ring.
      It is a liberty of a black group of the starting board, whose
      liberty count, one or two, becomes `best_liberties`. */
  lemma WEffectChoosesDefence(g: Game, pick: set<int> -> int)
    requires g.Valid() && Clean(g.cells, g.Range()) && PicksMember(pick)
    ensures WEffect(g, pick).bestMove != g.bestMove || WEffect(g, pick).bestLiberties != g.bestLiberties ==>
              && WEffect(g, pick).bestMove.Some?
              && Inside(g.Range(), WEffect(g, pick).bestMove.value)
              && WEffect(g, pick).bestMove.value < |WEffect(g, pick).cells|
              && WEffect(g, pick).cells[WEffect(g, pick).bestMove.value] == EMPTY
              && 1 <= WEffect(g, pick).bestLiberties <= 2
              && AwayFromRing(g.Range(), WEffect(g, pick).bestMove.value)
              && LibertyOfGroup(g.cells, g.Range(), BLACK, WEffect(g, pick).bestMove.value,
                                WEffect(g, pick).bestLiberties)
  {
    var b, R := g.cells, g.Range();
    assert DeadBelow(b, R, 0) == {};
    assert ClearGroup(b, {}) == b;
    WEffectFromDefends(b, R, g, pick, 0);
  }
}

=== FILE: cells.dfy ===
/**
 * The piece encoding of the Wally board: one byte per square.
 *
 *   0 empty, 1 black stone, 2 white stone, 4 stone-marker bit,
 *   7 off-board (sentinel), 8 liberty-marker bit;
 *   5 and 6 are a black and a white stone carrying the marker.
 */
module Cells {

  type Cell = bv8

  const EMPTY: Cell := 0
  const BLACK: Cell := 1
  const WHITE: Cell := 2
  const MARKER: Cell := 4
  const OFFBOARD: Cell := 7
  const LIBERTY: Cell := 8

  /** The two colours a scan can be asked about. */
  predicate IsStoneColor(color: Cell) {
    color == BLACK || color == WHITE
  }

  /** The stone test of the flood fill: a non-empty piece whose colour bits
      meet `color` and which carries no marker yet. */
  predicate Matches(piece: Cell, color: Cell) {
    piece & 3 != 0 && piece & color != 0 && piece & MARKER == 0
  }

  /** Python's `None` or a value. */
  datatype Option<T> = None | Some(value: T)
}

=== FILE: coords.dfy ===
/**
 * Move strings and board indices: `check_input`, `move2square` and
 * `square2move` of the Wally engine, with the decimal reading and writing
 * of row numbers they rely on (`str.isdigit`, `int`, `str`) and Python's
 * negative list index.
 *
 * A move is a column letter followed by a decimal row, rows counted from
 * the bottom: on a board of range R, column c and row r denote the square
 * (R - 1 - r) * R + (c - 'a') + 1.
 */
module Coords {
  import opened Geometry

  // ---------------------------------------------------------------------
  // Decimal numerals (ASCII digits only)

  predicate IsDigit(c: char) {
    '0' <= c <= '9'
  }

  /** `str.isdigit`: a non-empty string of digits. */
  predicate AllDigits(s: string) {
    |s| > 0 && forall i :: 0 <= i < |s| ==> IsDigit(s[i])
  }

  /** A numeral as `str` writes it: no leading zero except for zero itself. */
  predicate Canonical(s: string) {
    AllDigits(s) && (s[0] != '0' || |s| == 1)
  }

  /** `int(s)` on a string of digits. */
  function Parse(s: string): nat
    requires AllDigits(s)
  {
    var d := s[|s| - 1] as int - '0' as int;
    if |s| == 1 then d else 10 * Parse(s[..|s| - 1]) + d
  }

  function DigitChar(d: int): (c: char)
    requires 0 <= d < 10
    ensures IsDigit(c) && c as int - '0' as int == d
  {
    ('0' as int + d) as char
  }

  /** `str(n)` for a non-negative integer. */
  function Show(n: nat): (s: string)
    ensures Canonical(s)
    ensures |s| == 1 <==> n < 10
  {
    if n < 10 then [DigitChar(n)] else Show(n / 10) + [DigitChar(n % 10)]
  }

  /** `str(i)` for any integer. */
  function ShowInt(i: int): string {
    if i < 0 then "-" + Show(-i) else Show(i)
  }

  /** Reading back what `str` wrote gives the number. */
  lemma {:induction false} ParseShow(n: nat)
    ensures Parse(Show(n)) == n
  {
    if n >= 10 {
      ParseShow(n / 10);
      var s := Show(n);
      assert s[..|s| - 1] == Show(n / 10);
    }
  }

  /** A numeral without a leading zero denotes a positive number unless it
      is "0". */
  lemma {:induction false} ParsePositive(s: string)
    requires AllDigits(s) && s[0] != '0'
    ensures Parse(s) >= 1
  {
    if |s| > 1 {
      ParsePositive(s[..|s| - 1]);
    }
  }

  /** Writing a canonical numeral's value gives the numeral back. */
  lemma {:induction false} ShowParse(s: string)
    requires Canonical(s)
    ensures Show(Parse(s)) == s
  {
    if |s| > 1 {
      var p := s[..|s| - 1];
      var d := s[|s| - 1] as int - '0' as int;
      ShowParse(p);
      ParsePositive(p);
      var n := Parse(s);
      assert n == 10 * Parse(p) + d;
      DivModUnique(n, 10, Parse(p), d);
      assert s == p + [s[|s| - 1]];
    }
  }

  // ---------------------------------------------------------------------
  // Characters

  /** `str.lower` on one character, for ASCII letters. */
  function Lower(c: char): (l: char)
    ensures 'a' <= l <= 'z' <==> 'a' <= c <= 'z' || 'A' <= c <= 'Z'
    ensures !('A' <= c <= 'Z') ==> l == c
  {
    if 'A' <= c <= 'Z' then (c as int + 32) as char else c
  }

  // ---------------------------------------------------------------------
  // Python list indexing

  /** The indices a Python list of length `len` accepts, negative ones
      included. */
  predicate InPyRange(i: int, len: int) {
    -len <= i < len
  }

  /** The element position a Python index selects. */
  function PyIndex(i: int, len: int): (p: int)
    requires InPyRange(i, len)
    ensures 0 <= p < len && p % len == i % len
  {
    if i < 0 then i + len else i
  }

  // ---------------------------------------------------------------------
  // The validator and the conversions

  /** `check_input`, its return value: whether `input` names a square of a
      board of size `n`. The column is read case-insensitively and may run
      up to chr(97 + n). */
  function CheckInput(input: string, n: nat): (ok: bool)
    ensures ok ==> && n <= 25 && |input| >= 2
                   && 'a' as int <= Lower(input[0]) as int <= 97 + n
                   && AllDigits(input[1..]) && 1 <= Parse(input[1..]) <= n
    ensures n <= 25 && CheckInputFixed(input, n) ==> ok
  {
    if |input| == 0 then false
    else
      var lastChar := 97 + n;
      var column := Lower(input[0]) as int;
      if lastChar < 'a' as int || lastChar > 'z' as int then false
      else if column < 'a' as int || column > lastChar then false
      else if !AllDigits(input[1..]) then false
      else 1 <= Parse(input[1..]) <= n
  }

  /** `check_input` with the last column at chr(96 + n), the board's own
      last column. */
  function CheckInputFixed(input: string, n: nat): bool {
    if |input| == 0 then false
    else
      var lastChar := 96 + n;
      var column := Lower(input[0]) as int;
      if lastChar < 'a' as int || lastChar > 'z' as int then false
      else if column < 'a' as int || column > lastChar then false
      else if !AllDigits(input[1..]) then false
      else 1 <= Parse(input[1..]) <= n
  }

  /** `move2square`: a negative index, counted from the end of the board,
      built from the raw code of the column character. */
  function Move2Square(move: string, R: int): (square: int)
    requires |move| >= 2 && AllDigits(move[1..])
    ensures 'a' <= move[0] <= 'z' ==> square == Move2SquareFixed(move, R)
    ensures 'A' <= move[0] <= 'Z' ==> square == Move2SquareFixed(move, R) + 65
  {
    (1 + Parse(move[1..])) * -R + (move[0] as int) % 97 + 1
  }

  /** `move2square` reading the column case-insensitively, as the validator
      does. */
  function Move2SquareFixed(move: string, R: int): int
    requires |move| >= 2 && AllDigits(move[1..])
  {
    (1 + Parse(move[1..])) * -R + (Lower(move[0]) as int) % 97 + 1
  }

  /** `square2move`: column letter and decimal row of a board index. */
  function Square2Move(square: int, R: int): (move: string)
    requires 1 <= R <= 0xD000
    ensures |move| >= 2 && 'a' as int - 1 <= move[0] as int < 96 + R
    ensures R - 1 - square / R >= 0 ==> Canonical(move[1..])
  {
    var col := (97 + (square % R - 1)) as char;
    var row := ShowInt(R - 1 - square / R);
    [col] + row
  }

  // ---------------------------------------------------------------------
  // Round trips

  /** Every move the board-sized validator accepts, its column read
      case-insensitively, names a playable square: a negative index that
      Python wraps to row R - 1 - r from the top and column c - 'a' + 1,
      and `square2move` of that square writes the move back in lower case
      with a canonical row. */
  lemma MoveToSquare(m: string, n: nat, R: int)
    requires CheckInputFixed(m, n) && R == n + 2
    ensures |m| >= 2 && AllDigits(m[1..])
    ensures Move2SquareFixed(m, R) < 0 && InPyRange(Move2SquareFixed(m, R), R * R)
    ensures PyIndex(Move2SquareFixed(m, R), R * R)
            == (R - 1 - Parse(m[1..])) * R + (Lower(m[0]) as int - 'a' as int) + 1
    ensures Inside(R, PyIndex(Move2SquareFixed(m, R), R * R))
    ensures Square2Move(PyIndex(Move2SquareFixed(m, R), R * R), R) == [Lower(m[0])] + Show(Parse(m[1..]))
  {
    var r := Parse(m[1..]);
    var c := Lower(m[0]) as int - 'a' as int;
    var q := R - 1 - r;
    WrapRowFixed(m, R, r, c);
    var p := Move2SquareFixed(m, R) + R * R;
    IndexBounds(R, r, c + 1);
    assert PyIndex(Move2SquareFixed(m, R), R * R) == p;
    DivModUnique(p, R, q, c + 1);
    RowColDiv(R, p);
    Square2MoveAt(p, R, q, c + 1);
  }

  /** The round trip of a lower-case move with a canonical row: `move2square`
      as written gives a negative index that wraps to a playable
      square, and `square2move` of it is the move. */
  lemma MoveRoundTrip(m: string, n: nat, R: int)
    requires CheckInputFixed(m, n) && R == n + 2
    requires 'a' <= m[0] <= 'z' && Canonical(m[1..])
    ensures Move2Square(m, R) < 0 && Inside(R, Move2Square(m, R) + R * R)
    ensures Move2Square(m, R) + R * R == (R - 1 - Parse(m[1..])) * R + (m[0] as int - 'a' as int) + 1
    ensures Square2Move(Move2Square(m, R) + R * R, R) == m
  {
    MoveToSquare(m, n, R);
    assert Move2Square(m, R) == Move2SquareFixed(m, R);
    ShowParse(m[1..]);
    assert m == [m[0]] + m[1..];
  }

  /** `square2move` of a playable square writes a lower-case column of
      the board and its row as a canonical numeral. */
  lemma SquareToMove(s: int, n: nat, R: int)
    requires 1 <= n <= 26 && R == n + 2 && Inside(R, s)
    ensures |Square2Move(s, R)| >= 2 && Canonical(Square2Move(s, R)[1..])
    ensures 'a' <= Square2Move(s, R)[0] && Square2Move(s, R)[0] as int == 96 + s % R
    ensures Parse(Square2Move(s, R)[1..]) == R - 1 - s / R
  {
    var q, c := s / R, s % R;
    InsideRowCol(R, s);
    var row := R - 1 - q;
    Square2MoveAt(s, R, q, c);
    var m := Square2Move(s, R);
    assert m[1..] == Show(row);
    ParseShow(row);
  }

  /** The other round trip: `square2move` of a playable square is a move
      the board-sized validator accepts, lower case with a canonical row,
      and `move2square` of it wraps back to the square. */
  lemma SquareRoundTrip(s: int, n: nat, R: int)
    requires 1 <= n <= 26 && R == n + 2 && Inside(R, s)
    ensures |Square2Move(s, R)| >= 2 && AllDigits(Square2Move(s, R)[1..])
    ensures 'a' <= Square2Move(s, R)[0] <= 'z' && Canonical(Square2Move(s, R)[1..])
    ensures CheckInputFixed(Square2Move(s, R), n)
    ensures Move2Square(Square2Move(s, R), R) + R * R == s
  {
    InsideRowCol(R, s);
    SquareToMove(s, n, R);
    var q, c := s / R, s % R;
    var m := Square2Move(s, R);
    AcceptsBoardMove(m, n);
    WrapRow(m, R, R - 1 - q, c - 1);
    assert (R - 1 - (R - 1 - q)) * R == q * R;
  }

  /** A lower-case column of the board and a row of the board pass the
      board-sized validator. */
  lemma AcceptsBoardMove(m: string, n: nat)
    requires n <= 26 && |m| >= 2 && 'a' <= m[0] && m[0] as int <= 96 + n
    requires AllDigits(m[1..]) && 1 <= Parse(m[1..]) <= n
    ensures CheckInputFixed(m, n)
  {
  }

  /** A playable square lies in rows and columns 1 to R - 2. */
  lemma InsideRowCol(R: int, s: int)
    requires R >= 3 && Inside(R, s)
    ensures s == (s / R) * R + s % R
    ensures 1 <= s / R <= R - 2 && 1 <= s % R <= R - 2
  {
    var q, c := s / R, s % R;
    RowColDiv(R, s);
    RowCol(R, s);
    assert q != 0 && q != R - 1 && c != 0 && c != R - 1;
    assert q <= R - 2 by {
      if q >= R {
        MulMonotone(R, q, R);
      }
    }
  }

  /** `square2move` of the square at row q from the top and column k. */
  lemma Square2MoveAt(s: int, R: int, q: int, k: int)
    requires 1 <= R <= 0xD000 && s == q * R + k && 0 <= k < R && q <= R - 1
    ensures Square2Move(s, R) == [(96 + k) as char] + Show(R - 1 - q)
  {
    DivModUnique(s, R, q, k);
  }

  /** `move2square` as a row from the top and a column, once Python has
      wrapped the negative index. */
  lemma WrapRow(m: string, R: int, r: int, k: int)
    requires |m| >= 2 && AllDigits(m[1..])
    requires Parse(m[1..]) == r && (m[0] as int) % 97 == k
    ensures Move2Square(m, R) + R * R == (R - 1 - r) * R + k + 1
  {
    assert (1 + r) * -R + R * R == (R - 1 - r) * R;
  }

  lemma WrapRowFixed(m: string, R: int, r: int, k: int)
    requires |m| >= 2 && AllDigits(m[1..])
    requires Parse(m[1..]) == r && (Lower(m[0]) as int) % 97 == k
    ensures Move2SquareFixed(m, R) + R * R == (R - 1 - r) * R + k + 1
  {
    assert (1 + r) * -R + R * R == (R - 1 - r) * R;
  }

  // ---------------------------------------------------------------------
  // `check_input` and `move2square` as written

  /** The validator accepts exactly the moves of the board-sized validator
      plus those naming column chr(97 + n), one past the board. */
  lemma CheckInputExtraColumn(m: string, n: nat)
    requires n <= 25
    ensures CheckInput(m, n) <==>
              || CheckInputFixed(m, n)
              || (&& |m| >= 2 && Lower(m[0]) as int == 97 + n
                  && AllDigits(m[1..]) && 1 <= Parse(m[1..]) <= n)
  {
  }

  /** From 26 columns on, the last column letter chr(97 + n) lies past
      'z', and the validator rejects every move. */
  lemma CheckInputRejectsWideBoards(m: string, n: nat)
    requires n >= 26
    ensures !CheckInput(m, n)
  {
  }

  /** A move in the extra column passes the validator and lands on the
      sentinel ring. */
  lemma CheckInputAcceptsRing(n: nat, r: nat, R: int)
    requires 1 <= n <= 25 && 1 <= r <= n && R == n + 2
    ensures |[(97 + n) as char] + Show(r)| >= 2 && AllDigits(([(97 + n) as char] + Show(r))[1..])
    ensures CheckInput([(97 + n) as char] + Show(r), n)
    ensures !CheckInputFixed([(97 + n) as char] + Show(r), n)
    ensures InPyRange(Move2Square([(97 + n) as char] + Show(r), R), R * R)
    ensures OnRing(R, PyIndex(Move2Square([(97 + n) as char] + Show(r), R), R * R))
  {
    var m := [(97 + n) as char] + Show(r);
    assert m[1..] == Show(r);
    ParseShow(r);
    var q := R - 1 - r;
    WrapRow(m, R, r, n);
    var sq := Move2Square(m, R);
    assert sq + R * R == q * R + (R - 1);
    InnerBounds(R, q, R - 2);
    DivModUnique(sq + R * R, R, q, R - 1);
    RowColDiv(R, sq + R * R);
  }

  /** No range of at least three squares has 65 squares. */
  lemma NotSixtyFive(R: int)
    requires R >= 3
    ensures R * R != 65
  {
    if R <= 8 {
      MulMonotone(R, 8, R);
      MulMonotone(R, 8, 8);
    } else {
      MulMonotone(9, R, R);
      MulMonotone(9, R, 9);
    }
  }

  /** An upper-case column passes the validator, but `move2square` reads
      its raw code, 65 past the lower-case one: the index it gives is never
      the square the move names. */
  lemma UppercaseColumnShifted(m: string, n: nat, R: int)
    requires CheckInput(m, n) && 'A' <= m[0] <= 'Z' && R == n + 2
    ensures |m| >= 2 && AllDigits(m[1..])
    ensures Move2Square(m, R) == Move2SquareFixed(m, R) + 65
    ensures InPyRange(Move2SquareFixed(m, R), R * R)
    ensures InPyRange(Move2Square(m, R), R * R) ==>
              PyIndex(Move2Square(m, R), R * R) != PyIndex(Move2SquareFixed(m, R), R * R)
  {
    var r := Parse(m[1..]);
    var c := Lower(m[0]) as int - 'a' as int;
    assert 0 <= c <= n && 1 <= r <= n;
    WrapRow(m, R, r, c + 65);
    var sq := Move2Square(m, R) - 65;
    assert sq == Move2SquareFixed(m, R);
    IndexBounds(R, r, c + 1);
    ShiftMisses(R, sq + R * R);
  }

  lemma IndexBounds(R: int, r: int, k: int)
    requires R >= 3 && 1 <= r <= R - 2 && 1 <= k <= R - 1
    ensures R < (R - 1 - r) * R + k < R * R
  {
    MulMonotone(1, R - 1 - r, R);
    MulMonotone(R - 1 - r, R - 2, R);
    assert (R - 2) * R + R == R * R - R;
  }

  /** An index 65 past a square's negative index never selects the square. */
  lemma ShiftMisses(R: int, p: int)
    requires R >= 3 && 0 <= p < R * R
    ensures InPyRange(p - R * R + 65, R * R) ==> PyIndex(p - R * R + 65, R * R) != p
  {
    NotSixtyFive(R);
  }

  /** "A1" on a board of size 5 passes the validator, and `move2square`
      gives 52, past the end of the 49-square board. */
  lemma UppercaseOutOfRange()
    ensures CheckInput("A1", 5)
    ensures Move2Square("A1", 7) == 52 && !InPyRange(52, 49)
  {
    assert "A1"[1..] == "1";
  }
}

=== FILE: engine.dfy ===
/**
 * The one-ply move logic of Wally around the board: the `Board` object's
 * move-selection state, `lookahead`, `eval_liberty`, `reset_best_attr`,
 * the capture pass `weffect` and the response pass `beffect`.
 *
 * `random.choice` is modelled by a parameter `pick` that returns some
 * element of the nonempty set it is given; every property below holds
 * whichever element it returns.
 */
module Engine {
  import opened Cells
  import opened Geometry
  import opened Grid
  import opened Scanner

  /** The `Board` object: the board size, the cells and the move-selection
      state (`best_liberties`, `best_move` and the two parallel atari lists). */
  datatype Game = Game(
    size: nat,
    cells: seq<Cell>,
    bestLiberties: nat,
    bestMove: Option<int>,
    atariMoves: seq<int>,
    atariLiberties: seq<nat>)
  {
    /** `BOARD_RANGE` for the only margin `create` agrees with. */
    function Range(): int {
      size + 2
    }

    predicate Valid() {
      && size >= 1
      && Framed(cells, Range())
      && |atariMoves| == |atariLiberties|
    }
  }

  /** `Board(board_size)`: a fresh board and the initial selection state. */
  function NewGame(n: nat): (g: Game)
    requires n >= 1
    ensures g.Valid() && Clean(g.cells, g.Range())
    ensures g.size == n && g.cells == Create(n)
    ensures g.bestMove == None && g.bestLiberties == n * n
    ensures g.atariMoves == [] && g.atariLiberties == []
  {
    CreateIsClean(n);
    Game(n, Create(n), n * n, None, [], [])
  }

  /** `Board.reset`: a fresh board and a forgotten best move; the atari lists
      survive the reset. */
  function Reset(g: Game): (r: Game)
    requires g.Valid()
    ensures r.Valid() && Clean(r.cells, r.Range())
    ensures r.size == g.size && r.cells == NewGame(g.size).cells
    ensures r.bestMove == None && r.bestLiberties == g.size * g.size
    ensures r.atariMoves == g.atariMoves && r.atariLiberties == g.atariLiberties
  {
    CreateIsClean(g.size);
    g.(cells := Create(g.size), bestMove := None, bestLiberties := g.size * g.size)
  }

  /** `Board.reset_best_attr`: forgets the best move; the atari lists are
      left as they are. */
  function ResetBestAttr(g: Game): (r: Game)
    requires g.Valid()
    ensures r.Valid() && r.cells == g.cells
    ensures r.bestMove == None && r.bestLiberties == g.size * g.size
    ensures r.atariMoves == g.atariMoves && r.atariLiberties == g.atariLiberties
  {
    g.(bestMove := None, bestLiberties := g.size * g.size)
  }

  /** `random.choice` over a nonempty collection of squares returns one of
      them; which one is left open. */
  ghost predicate PicksMember(pick: set<int> -> int) {
    forall s :: s != {} ==> pick(s) in s
  }

  /** A framed board's stones and empty squares are playable squares. */
  lemma PiecesInside(b: seq<Cell>, R: int, color: Cell, s: set<int>)
    requires Framed(b, R) && (s <= Stones(b, color) || s <= Empties(b))
    ensures forall i :: i in s ==> Inside(R, i)
  {
  }

  /** A scan of a framed board finds playable squares only, and restoring
      what it marked keeps the frame. */
  lemma ScanFits(b: seq<Cell>, R: int, square: int, color: Cell)
    requires Framed(b, R) && 0 <= square < |b| && IsStoneColor(color)
    ensures Framed(Restore(Count(b, R, square, color).board), R)
    ensures forall i :: i in Count(b, R, square, color).group ==> Inside(R, i)
    ensures forall i :: i in Count(b, R, square, color).liberties ==> Inside(R, i)
  {
    var scan := Count(b, R, square, color);
    PiecesInside(b, R, color, scan.group);
    PiecesInside(b, R, EMPTY, scan.liberties);
  }

  /** The board and the count `lookahead` produces. */
  datatype Probe = Probe(board: seq<Cell>, liberties: nat)

  /** `lookahead(square, board)`: place a black stone, count the liberties
      of its group, remove the stone and restore the board. */
  function Lookahead(b: seq<Cell>, R: int, square: int): (p: Probe)
    requires Framed(b, R) && Inside(R, square)
    ensures Framed(p.board, R)
    ensures Clean(b, R) && b[square] == EMPTY ==> p.board == b
  {
    var placed := PlaceStone(b, square, BLACK);
    var scan := Count(placed, R, square, BLACK);
    CountOnlyMarks(placed, R, square, BLACK);
    var after := Restore(RemoveStone(scan.board, square));
    assert Clean(b, R) && b[square] == EMPTY ==> after == b by {
      if Clean(b, R) && b[square] == EMPTY {
        assert square in scan.group;
        forall i | 0 <= i < |b|
          ensures after[i] == b[i]
        {
          if i != square && b[i] != OFFBOARD {
            assert scan.board[i] & 3 == b[i];
          }
        }
      }
    }
    Probe(after, |scan.liberties|)
  }

  /** The count `lookahead` returns is the number of liberties of the black
      group through `square` once a black stone stands there. */
  lemma LookaheadCountsLiberties(b: seq<Cell>, R: int, square: int)
    requires Framed(b, R) && Inside(R, square)
    ensures Lookahead(b, R, square).liberties
              == |LibertiesOf(PlaceStone(b, square, BLACK), R, Group(PlaceStone(b, square, BLACK), R, BLACK, square))|
  {
    CountFindsGroup(PlaceStone(b, square, BLACK), R, square, BLACK);
  }

  /** `eval_liberty(square, liberties, board)`: accept `square` as the best
      move when its group is at least as urgent as the best so far and the
      lookahead leaves black at least two liberties there. */
  function EvalLiberty(g: Game, square: int, liberties: set<int>): (r: Game)
    requires g.Valid() && Inside(g.Range(), square)
    ensures r.Valid() && r.size == g.size
    ensures r.atariMoves == g.atariMoves && r.atariLiberties == g.atariLiberties
    ensures |liberties| <= g.bestLiberties && Lookahead(g.cells, g.Range(), square).liberties >= 2 ==>
              r.bestMove == Some(square) && r.bestLiberties == |liberties|
    ensures !(|liberties| <= g.bestLiberties && Lookahead(g.cells, g.Range(), square).liberties >= 2) ==>
              r.bestMove == g.bestMove && r.bestLiberties == g.bestLiberties
    ensures |liberties| > g.bestLiberties ==> r == g
    ensures r.bestLiberties <= g.bestLiberties
    ensures Clean(g.cells, g.Range()) && g.cells[square] == EMPTY ==> r.cells == g.cells
  {
    if |liberties| <= g.bestLiberties then
      var probe := Lookahead(g.cells, g.Range(), square);
      if probe.liberties >= 2 then
        g.(cells := probe.board, bestMove := Some(square), bestLiberties := |liberties|)
      else
        g.(cells := probe.board)
    else
      g
  }

  /** The edge test of `weffect`: none of the four neighbours of `square`
      holds the sentinel. A square next to the ring fails it; on a clean
      board, where the sentinel is exactly the ring, every other square
      passes. */
  function OffEdge(b: seq<Cell>, R: int, square: int): (r: bool)
    requires Framed(b, R) && Inside(R, square)
    ensures r ==> AwayFromRing(R, square)
    ensures Clean(b, R) ==> (r <==> AwayFromRing(R, square))
  {
    InsideNeighbours(R, square);
    && b[square - R] != OFFBOARD
    && b[square + 1] != OFFBOARD
    && b[square + R] != OFFBOARD
    && b[square - 1] != OFFBOARD
  }

  /** `off_edge_liberties` of `weffect`, as a set: the liberties that pass
      the edge test. */
  function OffEdgeLiberties(b: seq<Cell>, R: int, liberties: set<int>): (r: set<int>)
    requires Framed(b, R) && forall l :: l in liberties ==> Inside(R, l)
    ensures r <= liberties
    ensures forall l :: l in liberties && Clean(b, R) ==>
              (l in r <==> AwayFromRing(R, l))
  {
    set l | l in liberties && OffEdge(b, R, l)
  }

  /** `weffect(board)`: scan the board for black stones in increasing square
      order; remove every black group without a liberty, and for a group
      with one or two liberties offer one liberty away from the edge to
      `eval_liberty`. */
  function WEffect(g: Game, pick: set<int> -> int): (r: Game)
    requires g.Valid() && PicksMember(pick)
    ensures r.Valid() && r.size == g.size
    ensures r.atariMoves == g.atariMoves && r.atariLiberties == g.atariLiberties
    ensures r.bestLiberties <= g.bestLiberties
  {
    WEffectFrom(g, pick, 0)
  }

  /** The `weffect` loop from `square` on. */
  function WEffectFrom(g: Game, pick: set<int> -> int, square: nat): (r: Game)
    requires g.Valid() && PicksMember(pick)
    ensures r.Valid() && r.size == g.size
    ensures r.atariMoves == g.atariMoves && r.atariLiberties == g.atariLiberties
    ensures r.bestLiberties <= g.bestLiberties
    decreases |g.cells| - square
  {
    if square >= |g.cells| then
      g
    else
      WEffectFrom(WEffectVisit(g, pick, square), pick, square + 1)
  }

  /** One pass of the `weffect` loop: the visit of `square`. */
  function WEffectVisit(g: Game, pick: set<int> -> int, square: nat): (r: Game)
    requires g.Valid() && PicksMember(pick) && square < |g.cells|
    ensures r.Valid() && r.size == g.size && |r.cells| == |g.cells|
    ensures r.atariMoves == g.atariMoves && r.atariLiberties == g.atariLiberties
    ensures r.bestLiberties <= g.bestLiberties
    ensures g.cells[square] != BLACK ==> r == g
  {
    if g.cells[square] == BLACK then
      var R := g.Range();
      var scan := Count(g.cells, R, square, BLACK);
      var restored := g.(cells := Restore(scan.board));
      ScanFits(g.cells, R, square, BLACK);
      if |scan.liberties| == 0 then
        ClearInsideKeepsFrame(restored.cells, R, scan.group);
        restored.(cells := ClearGroup(restored.cells, scan.group))
      else
        WEffectExtend(restored, pick, scan.liberties)
    else
      g
  }

  /** The extension step of `weffect` for a black group with `liberties`:
      with one or two liberties, offer one of those away from the edge to
      `eval_liberty`. On a clean board, with empty liberties, the board
      stays as it is. */
  function WEffectExtend(g: Game, pick: set<int> -> int, liberties: set<int>): (r: Game)
    requires g.Valid() && PicksMember(pick) && forall l :: l in liberties ==> Inside(g.Range(), l)
    ensures r.Valid() && r.size == g.size && |r.cells| == |g.cells|
    ensures r.atariMoves == g.atariMoves && r.atariLiberties == g.atariLiberties
    ensures r.bestLiberties <= g.bestLiberties
    ensures Clean(g.cells, g.Range()) && liberties <= Empties(g.cells) ==> r.cells == g.cells
    // a group with three or more liberties, or none away from the edge, is passed over
    ensures |liberties| >= 3 || OffEdgeLiberties(g.cells, g.Range(), liberties) == {} ==> r == g
    // a new best move is an off-edge liberty of a group with one or two
    // liberties, where the lookahead leaves black at least two
    ensures r.bestMove != g.bestMove ==>
              && r.bestMove.Some? && r.bestMove.value in OffEdgeLiberties(g.cells, g.Range(), liberties)
              && 1 <= r.bestLiberties == |liberties| <= 2
              && Lookahead(g.cells, g.Range(), r.bestMove.value).liberties >= 2
    // and the offered liberty is taken when it passes both tests
    ensures && OffEdgeLiberties(g.cells, g.Range(), liberties) != {} && |liberties| < 3
            && |liberties| <= g.bestLiberties
            && Lookahead(g.cells, g.Range(), pick(OffEdgeLiberties(g.cells, g.Range(), liberties))).liberties >= 2
            ==> r.bestMove == Some(pick(OffEdgeLiberties(g.cells, g.Range(), liberties))) && r.bestLiberties == |liberties|
    // otherwise the best move and its liberty count stay as they were
    ensures !(&& OffEdgeLiberties(g.cells, g.Range(), liberties) != {} && |liberties| < 3
              && |liberties| <= g.bestLiberties
              && Lookahead(g.cells, g.Range(), pick(OffEdgeLiberties(g.cells, g.Range(), liberties))).liberties >= 2)
            ==> r.bestMove == g.bestMove && r.bestLiberties == g.bestLiberties
  {
    var offEdge := OffEdgeLiberties(g.cells, g.Range(), liberties);
    if offEdge != {} && |liberties| < 3 then
      EvalLiberty(g, pick(offEdge), liberties)
    else
      g
  }

  /** `beffect(board)`, with the atari comparison reading the list of atari
      moves: scan the board for white stones in increasing square order,
      record the only liberty of every white group in atari together with
      its lookahead count, offer one liberty of any other white group to
      `eval_liberty`, and finally answer the atari whose rescue square
      leaves black the most liberties. */
  function BEffect(g: Game, pick: set<int> -> int): (r: Game)
    requires g.Valid() && PicksMember(pick)
    ensures r.Valid() && r.size == g.size && Extends(r, g)
    ensures r.atariMoves != [] ==>
              exists k :: 0 <= k < |r.atariMoves|
                && r.bestMove == Some(r.atariMoves[k])
                && r.bestLiberties == r.atariLiberties[k]
                && (forall j :: 0 <= j < |r.atariLiberties| ==> r.atariLiberties[j] <= r.bestLiberties)
  {
    SelectAtari(BEffectFrom(g, pick, 0))
  }

  /** The `beffect` loop from `square` on. */
  function BEffectFrom(g: Game, pick: set<int> -> int, square: nat): (r: Game)
    requires g.Valid() && PicksMember(pick)
    ensures r.Valid() && r.size == g.size
    ensures Extends(r, g)
    decreases |g.cells| - square
  {
    if square >= |g.cells| then
      g
    else
      var next := BEffectVisit(g, pick, square);
      var r := BEffectFrom(next, pick, square + 1);
      ExtendsTransitive(r, next, g);
      r
  }

  /** One pass of the `beffect` loop: the visit of `square`. */
  function BEffectVisit(g: Game, pick: set<int> -> int, square: nat): (r: Game)
    requires g.Valid() && PicksMember(pick) && square < |g.cells|
    ensures r.Valid() && r.size == g.size && |r.cells| == |g.cells|
    ensures Extends(r, g) && |r.atariMoves| <= |g.atariMoves| + 1
  {
    if g.cells[square] == WHITE then
      var R := g.Range();
      var scan := Count(g.cells, R, square, WHITE);
      var restored := g.(cells := Restore(scan.board));
      ScanFits(g.cells, R, square, WHITE);
      if |scan.liberties| == 1 then
        var move := pick(scan.liberties);
        var probe := Lookahead(restored.cells, R, move);
        restored.(
          cells := probe.board,
          bestMove := Some(move),
          bestLiberties := probe.liberties,
          atariMoves := g.atariMoves + [move],
          atariLiberties := g.atariLiberties + [probe.liberties])
      else if |scan.liberties| >= 2 then
        EvalLiberty(restored, pick(scan.liberties), scan.liberties)
      else
        restored
    else
      g
  }

  /** The atari lists of `r` start with those of `g`. */
  predicate Extends(r: Game, g: Game) {
    && |g.atariMoves| <= |r.atariMoves|
    && |g.atariLiberties| <= |r.atariLiberties|
    && (forall j :: 0 <= j < |g.atariMoves| ==> r.atariMoves[j] == g.atariMoves[j])
    && (forall j :: 0 <= j < |g.atariLiberties| ==> r.atariLiberties[j] == g.atariLiberties[j])
  }

  lemma ExtendsTransitive(r: Game, h: Game, g: Game)
    requires Extends(r, h) && Extends(h, g)
    ensures Extends(r, g)
  {
  }

  /** `max` followed by `index`: the first position of a largest element. */
  function FirstMaxIndex(xs: seq<nat>): (k: nat)
    requires |xs| > 0
    ensures k < |xs|
    ensures forall j :: 0 <= j < |xs| ==> xs[j] <= xs[k]
    ensures forall j :: 0 <= j < k ==> xs[j] < xs[k]
  {
    if |xs| == 1 then
      0
    else
      var k := FirstMaxIndex(xs[..|xs| - 1]);
      if xs[|xs| - 1] > xs[k] then |xs| - 1 else k
  }

  /** The atari comparison at the end of `beffect`: when some white group
      was found in atari, the answer is the recorded rescue square with the
      largest lookahead count, the earliest one among equals. */
  function SelectAtari(g: Game): (r: Game)
    requires g.Valid()
    ensures r.Valid()
    ensures r.size == g.size && r.cells == g.cells
    ensures r.atariMoves == g.atariMoves && r.atariLiberties == g.atariLiberties
    ensures g.atariMoves == [] ==> r == g
    ensures g.atariMoves != [] ==>
              exists k :: 0 <= k < |g.atariMoves|
                && r.bestMove == Some(g.atariMoves[k])
                && r.bestLiberties == g.atariLiberties[k]
                && (forall j :: 0 <= j < |g.atariLiberties| ==> g.atariLiberties[j] <= r.bestLiberties)
                && (forall j :: 0 <= j < k ==> g.atariLiberties[j] < r.bestLiberties)
  {
    if g.atariMoves != [] then
      var k := FirstMaxIndex(g.atariLiberties);
      g.(bestLiberties := g.atariLiberties[k], bestMove := Some(g.atariMoves[k]))
    else
      g
  }

  /** What a call of `beffect` comes to: a changed `Board`, or the name of
      the exception it raises. */
  datatype Outcome = Completed(game: Game) | Raised(error: string)

  /** The attributes a `Board` object carries: the fields its constructor
      sets and the methods of its class. */
  const BoardAttributes: set<string> := {
    "EMPTY", "BLACK", "WHITE", "MARKER", "OFFBOARD", "LIBERTY", "pieces",
    "BOARD_SIZE", "MARGIN", "BOARD_RANGE", "board",
    "best_liberties", "best_move", "white_atari_move", "white_atari_liberties",
    "create", "render", "reset", "place_stone", "remove_stone", "count",
    "restore", "reset_best_attr", "clear_group"
  }

  /** `beffect(board)` as written: after the scan, the atari comparison tests
      `board.best_atari_move`, an attribute no `Board` object has. */
  function BEffectAsWritten(g: Game, pick: set<int> -> int): (r: Outcome)
    requires g.Valid() && PicksMember(pick)
    ensures r.Completed? ==> r.game == BEffect(g, pick)
    ensures r.Raised? ==> r.error == "AttributeError"
  {
    var scanned := BEffectFrom(g, pick, 0);
    if "best_atari_move" in BoardAttributes then
      Completed(SelectAtari(scanned))
    else
      Raised("AttributeError")
  }

  /** Every call of `beffect` as written ends in an `AttributeError`. */
  lemma BEffectAsWrittenRaises(g: Game, pick: set<int> -> int)
    requires g.Valid() && PicksMember(pick)
    ensures BEffectAsWritten(g, pick) == Raised("AttributeError")
  {
  }
}

=== FILE: geometry.dfy ===
/**
 * Geometry of the padded, row-major board: a board of size n is stored in
 * R * R squares with R = n + 2, the outer ring of which is the sentinel.
 * Square i lies in row i / R and column i % R.
 */
module Geometry {

  /** The row of square i, counted by stepping whole rows of R squares
      towards row 0; it is `i / R` (`RowColDiv`). */
  function Row(R: int, i: int): int
    requires R > 0
    decreases if i < 0 then R - i else i
  {
    if 0 <= i < R then 0 else if i < 0 then Row(R, i + R) - 1 else Row(R, i - R) + 1
  }

  /** The column of square i, what is left after stepping whole rows; it is
      `i % R` (`RowColDiv`). */
  function Col(R: int, i: int): int
    requires R > 0
    decreases if i < 0 then R - i else i
  {
    if 0 <= i < R then i else if i < 0 then Col(R, i + R) else Col(R, i - R)
  }

  /** Row 0, row R-1, column 0 or column R-1: the sentinel ring. */
  predicate OnRing(R: int, i: int)
    requires R > 0
  {
    Row(R, i) == 0 || Row(R, i) == R - 1 || Col(R, i) == 0 || Col(R, i) == R - 1
  }

  /** A playable square of a board of range R. */
  predicate Inside(R: int, i: int)
    requires R > 0
  {
    0 <= i < R * R && !OnRing(R, i)
  }

  /** None of the four neighbours of `i` lies on the ring. */
  predicate AwayFromRing(R: int, i: int)
    requires R > 0
  {
    !OnRing(R, i - R) && !OnRing(R, i + 1) && !OnRing(R, i + R) && !OnRing(R, i - 1)
  }

  /** The four orthogonal neighbours, in the order the flood fill visits
      them: up, right, down, left. */
  function Neighbours(R: int, i: int): (ns: seq<int>)
    ensures |ns| == 4
  {
    [i - R, i + 1, i + R, i - 1]
  }

  /** `y` is one of the four squares the flood fill steps to from `x`. */
  predicate Adjacent(R: int, x: int, y: int) {
    y == x - R || y == x + 1 || y == x + R || y == x - 1
  }

  lemma AdjacentIsNeighbour(R: int, x: int, y: int)
    ensures Adjacent(R, x, y) <==> exists k :: 0 <= k < 4 && Neighbours(R, x)[k] == y
  {
    if Adjacent(R, x, y) {
      if y == x - R {
        assert Neighbours(R, x)[0] == y;
      } else if y == x + 1 {
        assert Neighbours(R, x)[1] == y;
      } else if y == x + R {
        assert Neighbours(R, x)[2] == y;
      } else {
        assert Neighbours(R, x)[3] == y;
      }
    }
  }

  lemma AdjacentSymmetric(R: int, x: int, y: int)
    ensures Adjacent(R, x, y) <==> Adjacent(R, y, x)
  {
  }

  /** Row and column recover the square. */
  lemma RowCol(R: int, i: int)
    requires R > 0
    ensures i == (i / R) * R + i % R
    ensures 0 <= i % R < R
  {
  }

  /** Multiplication by a positive number is monotone. */
  lemma MulMonotone(a: int, b: int, R: int)
    requires R > 0 && a <= b
    ensures a * R <= b * R
  {
    var d := b - a;
    assert b * R == a * R + d * R;
    assert d * R >= 0;
  }

  /** Quotient and remainder are determined by any decomposition with a
      remainder in range. */
  lemma DivModUnique(x: int, R: int, q: int, c: int)
    requires R > 0 && x == q * R + c && 0 <= c < R
    ensures x / R == q && x % R == c
  {
    RowCol(R, x);
    var d := q - x / R;
    assert d * R == x % R - c;
    if d >= 1 {
      MulMonotone(1, d, R);
    } else if d <= -1 {
      MulMonotone(d, -1, R);
    }
  }

  /** Stepping one row back lowers the quotient by one and keeps the
      remainder. */
  lemma DivStep(i: int, R: int)
    requires R > 0 && i >= R
    ensures (i - R) / R == i / R - 1 && (i - R) % R == i % R
  {
    RowCol(R, i - R);
    DivModUnique(i, R, (i - R) / R + 1, (i - R) % R);
  }

  /** Stepping rows computes Python's (and Dafny's) floor division and
      remainder. */
  lemma {:induction false} RowColDiv(R: int, i: int)
    requires R > 0
    ensures Row(R, i) == i / R && Col(R, i) == i % R
    decreases if i < 0 then R - i else i
  {
    if 0 <= i < R {
      DivModUnique(i, R, 0, i);
    } else if i < 0 {
      RowColDiv(R, i + R);
      RowCol(R, i + R);
      DivModUnique(i, R, (i + R) / R - 1, (i + R) % R);
    } else {
      RowColDiv(R, i - R);
      DivStep(i, R);
    }
  }

  /** Row q and column c of a playable square lie in 1 .. R-2. */
  lemma InnerBounds(R: int, q: int, c: int)
    requires R >= 3 && 1 <= q <= R - 2 && 1 <= c <= R - 2
    ensures R + 1 <= q * R + c && q * R + c + R + 1 <= R * R
  {
    MulMonotone(1, q, R);
    MulMonotone(q + 2, R, R);
    assert (q + 2) * R == q * R + 2 * R;
  }

  /** The four neighbours of a playable square are all on the board. */
  lemma InsideNeighbours(R: int, i: int)
    requires R >= 3 && Inside(R, i)
    ensures 0 <= i - R && i + R < R * R && 0 <= i - 1 && i + 1 < R * R
  {
    var q, c := i / R, i % R;
    RowColDiv(R, i);
    RowCol(R, i);
    if q >= R {
      MulMonotone(R, q, R);
    }
    InnerBounds(R, q, c);
  }

  /** A connected walk through the squares of S. */
  ghost predicate IsPathIn(S: set<int>, R: int, p: seq<int>) {
    && |p| > 0
    && (forall k :: 0 <= k < |p| ==> p[k] in S)
    && (forall k :: 0 <= k < |p| - 1 ==> Adjacent(R, p[k], p[k + 1]))
  }

  /** `t` can be reached from `a` by 4-neighbour steps that stay inside S. */
  ghost predicate Reachable(S: set<int>, R: int, a: int, t: int) {
    exists p :: IsPathIn(S, R, p) && p[0] == a && p[|p| - 1] == t
  }

  lemma ReachableRefl(S: set<int>, R: int, a: int)
    requires a in S
    ensures Reachable(S, R, a, a)
  {
    assert IsPathIn(S, R, [a]);
  }

  lemma ReachableEnds(S: set<int>, R: int, a: int, t: int)
    requires Reachable(S, R, a, t)
    ensures a in S && t in S
  {
    var p :| IsPathIn(S, R, p) && p[0] == a && p[|p| - 1] == t;
    assert p[0] in S && p[|p| - 1] in S;
  }

  /** Reachability inside a set carries over to any larger set. */
  lemma ReachableMono(S: set<int>, S': set<int>, R: int, a: int, t: int)
    requires S <= S' && Reachable(S, R, a, t)
    ensures Reachable(S', R, a, t)
  {
    var p :| IsPathIn(S, R, p) && p[0] == a && p[|p| - 1] == t;
    assert IsPathIn(S', R, p);
  }

  /** One step before a walk. */
  lemma ReachablePrepend(S: set<int>, R: int, a: int, b: int, t: int)
    requires a in S && Adjacent(R, a, b) && Reachable(S, R, b, t)
    ensures Reachable(S, R, a, t)
  {
    var p :| IsPathIn(S, R, p) && p[0] == b && p[|p| - 1] == t;
    var q := [a] + p;
    assert forall k :: 1 <= k < |q| ==> q[k] == p[k - 1];
    assert IsPathIn(S, R, q);
  }

  /** One step after a walk. */
  lemma ReachableAppend(S: set<int>, R: int, a: int, t: int, u: int)
    requires Reachable(S, R, a, t) && u in S && Adjacent(R, t, u)
    ensures Reachable(S, R, a, u)
  {
    var p :| IsPathIn(S, R, p) && p[0] == a && p[|p| - 1] == t;
    var q := p + [u];
    assert IsPathIn(S, R, q);
  }

  /** Walks compose. */
  lemma {:induction false} ReachableTrans(S: set<int>, R: int, a: int, t: int, u: int)
    requires Reachable(S, R, a, t) && Reachable(S, R, t, u)
    ensures Reachable(S, R, a, u)
  {
    var p :| IsPathIn(S, R, p) && p[0] == a && p[|p| - 1] == t;
    var q :| IsPathIn(S, R, q) && q[0] == t && q[|q| - 1] == u;
    var w := p + q[1..];
    assert forall k :: |p| <= k < |w| ==> w[k] == q[k - |p| + 1];
    assert IsPathIn(S, R, w);
  }

  /** A set that holds the start of a walk through T and is closed under
      steps that stay in T holds the whole walk. */
  lemma {:induction false} ClosedSetHoldsPath(G: set<int>, T: set<int>, R: int, p: seq<int>)
    requires IsPathIn(T, R, p) && p[0] in G
    requires forall x, y :: x in G && Adjacent(R, x, y) && y in T ==> y in G
    ensures forall k :: 0 <= k < |p| ==> p[k] in G
  {
    var k := 0;
    while k < |p| - 1
      invariant 0 <= k < |p|
      invariant forall j :: 0 <= j <= k ==> p[j] in G
    {
      assert Adjacent(R, p[k], p[k + 1]) && p[k + 1] in T;
      k := k + 1;
    }
  }
}

=== FILE: grid.dfy ===
/**
 * The board of the Wally engine as a flat, row-major sequence of cells with
 * a one-square sentinel ring, and the small mutators of the `Board` class:
 * create, place_stone, remove_stone, restore and clear_group.
 */
module Grid {
  import opened Cells
  import opened Geometry

  /** A board of range R: R * R cells whose ring squares hold the sentinel. */
  predicate Framed(b: seq<Cell>, R: int) {
    && R >= 3
    && |b| == R * R
    && forall i :: 0 <= i < |b| && OnRing(R, i) ==> b[i] == OFFBOARD
  }

  /** A board between turns: framed, and every playable square holds an
      unmarked empty, black or white piece. */
  predicate Clean(b: seq<Cell>, R: int) {
    && Framed(b, R)
    && forall i :: 0 <= i < |b| && !OnRing(R, i) ==> b[i] == EMPTY || b[i] == BLACK || b[i] == WHITE
  }

  /** No square other than the sentinel has both colour bits set, so that
      marking a stone can never turn it into the sentinel. */
  predicate WellEncoded(b: seq<Cell>) {
    forall i :: 0 <= i < |b| && b[i] != OFFBOARD ==> b[i] & 3 != 3
  }

  /** The squares a scan for `color` would still take into a group. */
  function Stones(b: seq<Cell>, color: Cell): set<int> {
    set i | 0 <= i < |b| && Matches(b[i], color)
  }

  /** The squares holding exactly the empty piece (no liberty marker). */
  function Empties(b: seq<Cell>): set<int> {
    set i | 0 <= i < |b| && b[i] == EMPTY
  }

  function Repeat<T>(x: T, k: nat): (s: seq<T>)
    ensures |s| == k && forall i :: 0 <= i < k ==> s[i] == x
  {
    if k == 0 then [] else [x] + Repeat(x, k - 1)
  }

  /** The row-by-row concatenation `[item for sublist in board for item in sublist]`. */
  function Flatten(rows: seq<seq<Cell>>): seq<Cell> {
    if rows == [] then [] else rows[0] + Flatten(rows[1..])
  }

  lemma {:induction false} FlattenLength(rows: seq<seq<Cell>>, R: int)
    requires forall r :: 0 <= r < |rows| ==> |rows[r]| == R
    ensures |Flatten(rows)| == |rows| * R
  {
    if rows != [] {
      FlattenLength(rows[1..], R);
      assert |rows| * R == R + (|rows| - 1) * R;
    }
  }

  lemma {:induction false} FlattenAt(rows: seq<seq<Cell>>, R: int, i: int)
    requires R > 0 && forall r :: 0 <= r < |rows| ==> |rows[r]| == R
    requires 0 <= i < |Flatten(rows)|
    ensures 0 <= i / R < |rows| && Flatten(rows)[i] == rows[i / R][i % R]
  {
    FlattenLength(rows, R);
    var tail := rows[1..];
    FlattenLength(tail, R);
    if i < R {
      DivModUnique(i, R, 0, i);
    } else {
      var j := i - R;
      FlattenAt(tail, R, j);
      DivStep(i, R);
      assert Flatten(rows)[i] == Flatten(tail)[j];
    }
  }

  /** Flattening distributes over concatenation of the row lists. */
  lemma {:induction false} FlattenConcat(a: seq<seq<Cell>>, c: seq<seq<Cell>>)
    ensures Flatten(a + c) == Flatten(a) + Flatten(c)
  {
    if a != [] {
      assert (a + c)[1..] == a[1..] + c;
      FlattenConcat(a[1..], c);
    } else {
      assert a + c == c;
    }
  }

  /** The row count `max(k, 0)` of Python's `[x] * k`. */
  function Times(k: int): nat {
    if k < 0 then 0 else k
  }

  /** `Board.create` for a board of size `n` built with `margin`: the top
      and bottom rows hold BOARD_RANGE = n + margin sentinels (none when
      that is negative), while each of the `n` middle rows holds `n` empty
      squares between two sentinels, whatever the margin. */
  function CreateWithMargin(n: nat, margin: int): (b: seq<Cell>)
    ensures |b| == 2 * Times(n + margin) + n * (n + 2)
  {
    var edge := Repeat(OFFBOARD, Times(n + margin));
    var middle := [OFFBOARD] + Repeat(EMPTY, n) + [OFFBOARD];
    var rows := [edge] + Repeat(middle, n) + [edge];
    FlattenConcat([edge] + Repeat(middle, n), [edge]);
    FlattenConcat([edge], Repeat(middle, n));
    FlattenLength(Repeat(middle, n), n + 2);
    assert Flatten([edge]) == edge by { assert [edge][1..] == []; }
    Flatten(rows)
  }

  /** `Board.create` with the default margin 2: a top sentinel row, `n`
      rows of empty squares between two sentinels, and a bottom sentinel
      row, so the sentinels form a ring one square thick. */
  function Create(n: nat): (b: seq<Cell>)
    ensures |b| == (n + 2) * (n + 2)
    ensures forall i :: 0 <= i < |b| ==> b[i] == (if OnRing(n + 2, i) then OFFBOARD else EMPTY)
  {
    var R := n + 2;
    var edge := Repeat(OFFBOARD, R);
    var middle := [OFFBOARD] + Repeat(EMPTY, n) + [OFFBOARD];
    var rows := [edge] + Repeat(middle, n) + [edge];
    assert CreateWithMargin(n, 2) == Flatten(rows);
    FlattenLength(rows, R);
    assert forall i :: 0 <= i < |Flatten(rows)| ==> Flatten(rows)[i] == (if OnRing(R, i) then OFFBOARD else EMPTY) by {
      forall i | 0 <= i < |Flatten(rows)|
        ensures Flatten(rows)[i] == (if OnRing(R, i) then OFFBOARD else EMPTY)
      {
        FlattenAt(rows, R, i);
        RowColDiv(R, i);
      }
    }
    CreateWithMargin(n, 2)
  }

  /** `Board.place_stone`: an unconditional write of the piece. */
  function PlaceStone(b: seq<Cell>, square: int, color: Cell): (r: seq<Cell>)
    requires 0 <= square < |b|
    ensures |r| == |b| && r[square] == color
    ensures forall i :: 0 <= i < |b| && i != square ==> r[i] == b[i]
  {
    b[square := color]
  }

  /** `Board.remove_stone`: keeps only the liberty bit of the square. */
  function RemoveStone(b: seq<Cell>, square: int): (r: seq<Cell>)
    requires 0 <= square < |b|
    ensures |r| == |b| && r[square] & 3 == 0 && r[square] & MARKER == 0
    ensures r[square] & LIBERTY == b[square] & LIBERTY && r[square] & !LIBERTY == 0
    ensures forall i :: 0 <= i < |b| && i != square ==> r[i] == b[i]
  {
    b[square := b[square] & LIBERTY]
  }

  /** `Board.restore`: every square that is not the sentinel loses its
      marker and liberty bits and keeps its colour bits. */
  function Restore(b: seq<Cell>): (r: seq<Cell>)
    ensures |r| == |b|
    ensures forall i :: 0 <= i < |b| && b[i] == OFFBOARD ==> r[i] == OFFBOARD
    ensures forall i :: 0 <= i < |b| && b[i] != OFFBOARD ==> r[i] & 3 == b[i] & 3 && r[i] & !3 == 0
  {
    seq(|b|, i requires 0 <= i < |b| => if b[i] != OFFBOARD then b[i] & 3 else b[i])
  }

  /** `Board.clear_group`: the listed squares become empty. */
  function ClearGroup(b: seq<Cell>, group: set<int>): (r: seq<Cell>)
    requires forall i :: i in group ==> 0 <= i < |b|
    ensures |r| == |b|
    ensures forall i :: i in group ==> r[i] == EMPTY
    ensures forall i :: 0 <= i < |b| && i !in group ==> r[i] == b[i]
  {
    seq(|b|, i requires 0 <= i < |b| => if i in group then EMPTY else b[i])
  }

  /** The board `create` builds has BOARD_RANGE * BOARD_RANGE cells, the
      layout every index computation relies on, exactly for the default
      margin 2. */
  lemma CreateFitsRange(n: nat, margin: int)
    requires n >= 1
    ensures |CreateWithMargin(n, margin)| == (n + margin) * (n + margin) <==> margin == 2
  {
    var x := n + margin;
    if x < 0 {
      NotSquare(n, -x);
      assert x * x == (-x) * (-x);
    } else {
      assert 2 * x + n * (n + 2) - x * x == (n + 1) * (n + 1) - (x - 1) * (x - 1);
      SameSquare(x - 1, n + 1);
    }
  }

  /** n * (n + 2) lies strictly between n * n and (n + 1) * (n + 1), so it
      is no square. */
  lemma NotSquare(n: nat, y: int)
    requires n >= 1 && y >= 0
    ensures y * y != n * (n + 2)
  {
    if y <= n {
      MulMonotone(y, n, y + 1);
      MulMonotone(y, n, n + 1);
      assert y * y <= y * n <= n * n;
    } else {
      MulMonotone(n + 1, y, y);
      MulMonotone(n + 1, y, n + 1);
      assert (n + 1) * (n + 1) <= (n + 1) * y <= y * y;
    }
  }

  lemma SameSquare(x: int, y: int)
    ensures x * x == y * y <==> x == y || x == -y
  {
    assert x * x - y * y == (x - y) * (x + y);
    if x * x == y * y {
      assert (x - y) * (x + y) == 0;
    }
  }

  /** A fresh board is clean. */
  lemma CreateIsClean(n: nat)
    requires n >= 1
    ensures Clean(Create(n), n + 2)
  {
  }

  /** Restoring twice is restoring once. */
  lemma RestoreIdempotent(b: seq<Cell>)
    ensures Restore(Restore(b)) == Restore(b)
  {
  }

  /** A clean board has nothing to restore. */
  lemma RestoreClean(b: seq<Cell>, R: int)
    requires Clean(b, R)
    ensures Restore(b) == b
  {
  }

  /** Removing a freshly placed stone gives the empty square back. */
  lemma RemoveUndoesPlace(b: seq<Cell>, square: int, color: Cell)
    requires 0 <= square < |b| && b[square] == EMPTY && IsStoneColor(color)
    ensures RemoveStone(PlaceStone(b, square, color), square) == b
  {
  }

  /** Clearing playable squares keeps the ring and, on a clean board, leaves
      a clean board. */
  lemma ClearGroupKeepsClean(b: seq<Cell>, R: int, group: set<int>)
    requires Clean(b, R) && forall i :: i in group ==> 0 <= i < |b| && !OnRing(R, i)
    ensures Clean(ClearGroup(b, group), R)
  {
    var r := ClearGroup(b, group);
    forall i | 0 <= i < |r| && OnRing(R, i) ensures r[i] == OFFBOARD {
      assert i !in group;
    }
  }

  /** Clearing playable squares keeps the frame. */
  lemma ClearInsideKeepsFrame(b: seq<Cell>, R: int, group: set<int>)
    requires Framed(b, R) && forall i :: i in group ==> 0 <= i < |b| && !OnRing(R, i)
    ensures Framed(ClearGroup(b, group), R)
  {
    var r := ClearGroup(b, group);
    forall i | 0 <= i < |r| && OnRing(R, i) ensures r[i] == OFFBOARD {
      assert i !in group;
    }
  }
}

=== FILE: scanner.dfy ===
/**
 * `Board.count`: the depth-first flood fill that collects the stone group
 * containing a square together with the group's liberties, marking stones
 * with the marker bit and liberties with the liberty bit as it goes.
 *
 * The loop of `Board.count` over the four neighbours is modelled by `CountAll`, a
 * fold over the neighbour list that threads the board from one recursive
 * call to the next, exactly as the in-place marks are seen by later calls.
 */
module Scanner {
  import opened Cells
  import opened Geometry
  import opened Grid

  /** The board after a scan, the group found and its liberties. */
  datatype Scan = Scan(board: seq<Cell>, group: set<int>, liberties: set<int>)

  /** `Board.count(square, color)`. */
  function Count(b: seq<Cell>, R: int, square: int, color: Cell): (r: Scan)
    requires Framed(b, R) && 0 <= square < |b| && IsStoneColor(color)
    ensures Framed(r.board, R)
    ensures r.group <= Stones(b, color) && r.liberties <= Empties(b)
    ensures Stones(r.board, color) <= Stones(b, color) && Empties(r.board) <= Empties(b)
    decreases Stones(b, color), 0
  {
    var piece := b[square];
    if piece != OFFBOARD then
      if Matches(piece, color) then
        InsideNeighbours(R, square);
        var marked := MarkStone(b, square, color);
        var rest := CountAll(marked, R, Neighbours(R, square), color);
        Scan(rest.board, {square} + rest.group, rest.liberties)
      else if piece == EMPTY then
        var marked := b[square := piece | LIBERTY];
        assert Stones(marked, color) == Stones(b, color);
        Scan(marked, {}, {square})
      else
        Scan(b, {}, {})
    else
      Scan(b, {}, {})
  }

  /** The `for delta in [...]` loop of `Board.count`: one `Count` per square, each
      seeing the marks the previous ones left. */
  function CountAll(b: seq<Cell>, R: int, squares: seq<int>, color: Cell): (r: Scan)
    requires Framed(b, R) && IsStoneColor(color)
    requires forall k :: 0 <= k < |squares| ==> 0 <= squares[k] < |b|
    ensures Framed(r.board, R)
    ensures r.group <= Stones(b, color) && r.liberties <= Empties(b)
    ensures Stones(r.board, color) <= Stones(b, color) && Empties(r.board) <= Empties(b)
    decreases Stones(b, color), |squares|
  {
    if squares == [] then
      Scan(b, {}, {})
    else
      var first := Count(b, R, squares[0], color);
      var rest := CountAll(first.board, R, squares[1..], color);
      Scan(rest.board, first.group + rest.group, first.liberties + rest.liberties)
  }

  /** The piece a scan leaves on square i: the marker on group stones, the
      liberty bit on liberties, everything else untouched. */
  function MarkedPiece(b: seq<Cell>, group: set<int>, liberties: set<int>, i: int): Cell
    requires 0 <= i < |b|
  {
    if i in group then b[i] | MARKER
    else if i in liberties then b[i] | LIBERTY
    else b[i]
  }

  /** A scan of `b` marks exactly its group and its liberties. */
  ghost predicate MarksOnly(b: seq<Cell>, color: Cell, r: Scan) {
    && |r.board| == |b|
    && r.group <= Stones(b, color)
    && r.liberties <= Empties(b)
    && forall i :: 0 <= i < |b| ==> r.board[i] == MarkedPiece(b, r.group, r.liberties, i)
  }

  /** Every seed that is a stone joins the group, every empty seed is a
      liberty. */
  ghost predicate Seeded(b: seq<Cell>, color: Cell, seeds: seq<int>, r: Scan) {
    && (forall k :: 0 <= k < |seeds| && seeds[k] in Stones(b, color) ==> seeds[k] in r.group)
    && (forall k :: 0 <= k < |seeds| && seeds[k] in Empties(b) ==> seeds[k] in r.liberties)
  }

  /** No neighbour of the group is left out: stones join it, empty squares
      become liberties. */
  ghost predicate Closed(b: seq<Cell>, R: int, color: Cell, r: Scan) {
    && (forall x, y :: x in r.group && Adjacent(R, x, y) && y in Stones(b, color) ==> y in r.group)
    && (forall x, y :: x in r.group && Adjacent(R, x, y) && y in Empties(b) ==> y in r.liberties)
  }

  /** Nothing is taken in that is not connected to the start square. */
  ghost predicate Sound(R: int, square: int, r: Scan) {
    && (forall y :: y in r.liberties ==> y == square || exists x :: x in r.group && Adjacent(R, x, y))
    && (forall t :: t in r.group ==> Reachable(r.group, R, square, t))
  }

  /** The same for a scan of the neighbours of `anchor`, which is itself
      already in the group. */
  ghost predicate SoundAround(R: int, anchor: int, r: Scan) {
    && (forall y :: y in r.liberties ==> exists x :: x in r.group + {anchor} && Adjacent(R, x, y))
    && (forall t :: t in r.group ==> Reachable(r.group + {anchor}, R, anchor, t))
  }

  /** What a scan from `square` establishes about its result. */
  ghost predicate Explores(b: seq<Cell>, R: int, color: Cell, square: int, r: Scan) {
    MarksOnly(b, color, r) && Seeded(b, color, [square], r) && Closed(b, R, color, r) && Sound(R, square, r)
  }

  /** What a scan of the neighbours of `anchor` establishes. */
  ghost predicate ExploresAround(b: seq<Cell>, R: int, color: Cell, anchor: int, squares: seq<int>, r: Scan) {
    MarksOnly(b, color, r) && Seeded(b, color, squares, r) && Closed(b, R, color, r) && SoundAround(R, anchor, r)
  }

  /** Marking a group and its liberties removes them from the stones and
      empty squares a later scan can see. */
  lemma MarkedSets(b: seq<Cell>, color: Cell, r: Scan)
    requires MarksOnly(b, color, r)
    ensures Stones(r.board, color) == Stones(b, color) - r.group
    ensures Empties(r.board) == Empties(b) - r.liberties
  {
  }

  /** `self.board[square] |= self.MARKER` on an unmarked stone: the stone,
      and only it, leaves the stones a scan can see. */
  function MarkStone(b: seq<Cell>, square: int, color: Cell): (r: seq<Cell>)
    requires 0 <= square < |b| && Matches(b[square], color)
    ensures |r| == |b| && r[square] == b[square] | MARKER
    ensures forall i :: 0 <= i < |b| && i != square ==> r[i] == b[i]
    ensures Stones(r, color) == Stones(b, color) - {square}
    ensures Empties(r) == Empties(b)
  {
    b[square := b[square] | MARKER]
  }

  lemma NeighboursAreAdjacent(R: int, square: int)
    ensures forall k :: 0 <= k < 4 ==> Adjacent(R, square, Neighbours(R, square)[k])
  {
  }

  lemma {:induction false} CountExplores(b: seq<Cell>, R: int, square: int, color: Cell)
    requires Framed(b, R) && 0 <= square < |b| && IsStoneColor(color)
    ensures Explores(b, R, color, square, Count(b, R, square, color))
    decreases Stones(b, color), 0
  {
    var piece := b[square];
    if piece != OFFBOARD && Matches(piece, color) {
      InsideNeighbours(R, square);
      var marked := MarkStone(b, square, color);
      var ns := Neighbours(R, square);
      NeighboursAreAdjacent(R, square);
      CountAllExplores(marked, R, square, ns, color);
      ExtendByStone(b, R, color, square, CountAll(marked, R, ns, color));
    } else {
      CountOnNonStone(b, R, square, color);
    }
  }

  /** A scan that starts on anything but an unmarked stone of the colour. */
  lemma CountOnNonStone(b: seq<Cell>, R: int, square: int, color: Cell)
    requires Framed(b, R) && 0 <= square < |b| && IsStoneColor(color)
    requires b[square] == OFFBOARD || !Matches(b[square], color)
    ensures Explores(b, R, color, square, Count(b, R, square, color))
  {
    var piece := b[square];
    if piece == EMPTY {
      var r := Scan(b[square := piece | LIBERTY], {}, {square});
      assert Count(b, R, square, color) == r;
      assert MarksOnly(b, color, r);
    } else {
      assert Count(b, R, square, color) == Scan(b, {}, {});
    }
  }

  /** The step of `Count` on a stone: the square, marked, followed by the
      scan of its four neighbours. */
  lemma ExtendByStone(b: seq<Cell>, R: int, color: Cell, square: int, rest: Scan)
    requires Framed(b, R) && 0 <= square < |b| && Matches(b[square], color)
    requires ExploresAround(MarkStone(b, square, color), R, color, square, Neighbours(R, square), rest)
    ensures Explores(b, R, color, square, Scan(rest.board, {square} + rest.group, rest.liberties))
  {
    ExtendMarks(b, color, square, rest);
    ExtendClosed(b, R, color, square, rest);
    ExtendSound(b, R, color, square, rest);
  }

  lemma ExtendMarks(b: seq<Cell>, color: Cell, square: int, rest: Scan)
    requires 0 <= square < |b| && Matches(b[square], color)
    requires MarksOnly(MarkStone(b, square, color), color, rest)
    ensures MarksOnly(b, color, Scan(rest.board, {square} + rest.group, rest.liberties))
  {
    var marked := MarkStone(b, square, color);
    var r := Scan(rest.board, {square} + rest.group, rest.liberties);
    forall i | 0 <= i < |b|
      ensures r.board[i] == MarkedPiece(b, r.group, r.liberties, i)
    {
      assert rest.board[i] == MarkedPiece(marked, rest.group, rest.liberties, i);
      if i == square {
        assert square !in rest.group && square !in rest.liberties;
      }
    }
  }

  lemma ExtendClosed(b: seq<Cell>, R: int, color: Cell, square: int, rest: Scan)
    requires 0 <= square < |b| && Matches(b[square], color) && R > 0
    requires Seeded(MarkStone(b, square, color), color, Neighbours(R, square), rest)
    requires Closed(MarkStone(b, square, color), R, color, rest)
    ensures Closed(b, R, color, Scan(rest.board, {square} + rest.group, rest.liberties))
  {
    var marked := MarkStone(b, square, color);
    var ns := Neighbours(R, square);
    var r := Scan(rest.board, {square} + rest.group, rest.liberties);
    forall x, y | x in r.group && Adjacent(R, x, y) && y in Stones(b, color)
      ensures y in r.group
    {
      if x == square && y != square {
        AdjacentIsNeighbour(R, x, y);
        var k :| 0 <= k < 4 && ns[k] == y;
        assert ns[k] in Stones(marked, color);
      }
    }
    forall x, y | x in r.group && Adjacent(R, x, y) && y in Empties(b)
      ensures y in r.liberties
    {
      if x == square {
        AdjacentIsNeighbour(R, x, y);
        var k :| 0 <= k < 4 && ns[k] == y;
        assert ns[k] in Empties(marked);
      }
    }
  }

  lemma ExtendSound(b: seq<Cell>, R: int, color: Cell, square: int, rest: Scan)
    requires SoundAround(R, square, rest)
    ensures Sound(R, square, Scan(rest.board, {square} + rest.group, rest.liberties))
  {
    var r := Scan(rest.board, {square} + rest.group, rest.liberties);
    assert rest.group + {square} == r.group;
    ReachableRefl(r.group, R, square);
  }

  lemma {:induction false} CountAllExplores(b: seq<Cell>, R: int, anchor: int, squares: seq<int>, color: Cell)
    requires Framed(b, R) && IsStoneColor(color)
    requires forall k :: 0 <= k < |squares| ==> 0 <= squares[k] < |b| && Adjacent(R, anchor, squares[k])
    ensures ExploresAround(b, R, color, anchor, squares, CountAll(b, R, squares, color))
    decreases Stones(b, color), |squares|
  {
    if squares != [] {
      var first := Count(b, R, squares[0], color);
      var rest := CountAll(first.board, R, squares[1..], color);
      CountExplores(b, R, squares[0], color);
      CountAllExplores(first.board, R, anchor, squares[1..], color);
      MarkedSets(b, color, first);
      ComposeMarks(b, color, first, rest);
      ComposeSeeded(b, color, squares, first, rest);
      ComposeClosed(b, R, color, first, rest);
      ComposeSound(R, anchor, squares[0], first, rest);
    }
  }

  lemma ComposeMarks(b: seq<Cell>, color: Cell, first: Scan, rest: Scan)
    requires MarksOnly(b, color, first) && MarksOnly(first.board, color, rest)
    ensures MarksOnly(b, color, Scan(rest.board, first.group + rest.group, first.liberties + rest.liberties))
  {
    var r := Scan(rest.board, first.group + rest.group, first.liberties + rest.liberties);
    var b1 := first.board;
    MarkedSets(b, color, first);
    forall i | 0 <= i < |b|
      ensures r.board[i] == MarkedPiece(b, r.group, r.liberties, i)
    {
      assert rest.board[i] == MarkedPiece(b1, rest.group, rest.liberties, i);
      assert b1[i] == MarkedPiece(b, first.group, first.liberties, i);
    }
  }

  lemma ComposeSeeded(b: seq<Cell>, color: Cell, squares: seq<int>, first: Scan, rest: Scan)
    requires |squares| > 0
    requires Stones(first.board, color) == Stones(b, color) - first.group
    requires Empties(first.board) == Empties(b) - first.liberties
    requires Seeded(b, color, [squares[0]], first) && Seeded(first.board, color, squares[1..], rest)
    ensures Seeded(b, color, squares, Scan(rest.board, first.group + rest.group, first.liberties + rest.liberties))
  {
    var r := Scan(rest.board, first.group + rest.group, first.liberties + rest.liberties);
    forall k | 0 <= k < |squares| && squares[k] in Stones(b, color)
      ensures squares[k] in r.group
    {
      if k == 0 {
        assert [squares[0]][0] == squares[k];
      } else if squares[k] !in first.group {
        assert squares[1..][k - 1] == squares[k];
      }
    }
    forall k | 0 <= k < |squares| && squares[k] in Empties(b)
      ensures squares[k] in r.liberties
    {
      if k == 0 {
        assert [squares[0]][0] == squares[k];
      } else if squares[k] !in first.liberties {
        assert squares[1..][k - 1] == squares[k];
      }
    }
  }

  lemma ComposeClosed(b: seq<Cell>, R: int, color: Cell, first: Scan, rest: Scan)
    requires Stones(first.board, color) == Stones(b, color) - first.group
    requires Empties(first.board) == Empties(b) - first.liberties
    requires Closed(b, R, color, first) && Closed(first.board, R, color, rest)
    ensures Closed(b, R, color, Scan(rest.board, first.group + rest.group, first.liberties + rest.liberties))
  {
  }

  lemma ComposeSound(R: int, anchor: int, square: int, first: Scan, rest: Scan)
    requires Adjacent(R, anchor, square)
    requires Sound(R, square, first) && SoundAround(R, anchor, rest)
    ensures SoundAround(R, anchor, Scan(rest.board, first.group + rest.group, first.liberties + rest.liberties))
  {
    var r := Scan(rest.board, first.group + rest.group, first.liberties + rest.liberties);
    var G := r.group + {anchor};
    forall y | y in r.liberties
      ensures exists x :: x in G && Adjacent(R, x, y)
    {
      if y in first.liberties {
        if y == square {
          assert anchor in G && Adjacent(R, anchor, y);
        } else {
          var x :| x in first.group && Adjacent(R, x, y);
          assert x in G;
        }
      } else {
        var x :| x in rest.group + {anchor} && Adjacent(R, x, y);
        assert x in G;
      }
    }
    forall t | t in r.group
      ensures Reachable(G, R, anchor, t)
    {
      if t in first.group {
        ReachableMono(first.group, G, R, square, t);
        ReachablePrepend(G, R, anchor, square, t);
      } else {
        ReachableMono(rest.group + {anchor}, G, R, anchor, t);
      }
    }
  }

  /** The group of `square`: every square reachable from it by 4-neighbour
      steps over unmarked stones of the colour. */
  ghost function Group(b: seq<Cell>, R: int, color: Cell, square: int): set<int> {
    set t | 0 <= t < |b| && Reachable(Stones(b, color), R, square, t)
  }

  /** The empty squares next to some square of `group`. */
  ghost function LibertiesOf(b: seq<Cell>, R: int, group: set<int>): set<int> {
    set y | 0 <= y < |b| && b[y] == EMPTY && exists x :: x in group && Adjacent(R, x, y)
  }

  /** `m` is a liberty of the group of some stone of `color` on `b`, and
      that group has `n` liberties. */
  ghost predicate LibertyOfGroup(b: seq<Cell>, R: int, color: Cell, m: int, n: int) {
    exists s :: && 0 <= s < |b| && b[s] == color
                && m in LibertiesOf(b, R, Group(b, R, color, s))
                && n == |LibertiesOf(b, R, Group(b, R, color, s))|
  }

  /** `count` returns exactly the connected group of unmarked stones of the
      colour containing `square`, and exactly the empty squares next to it;
      started on an empty square it returns no stones and that square; on
      anything else, nothing. */
  lemma CountFindsGroup(b: seq<Cell>, R: int, square: int, color: Cell)
    requires Framed(b, R) && 0 <= square < |b| && IsStoneColor(color)
    ensures Count(b, R, square, color).group == Group(b, R, color, square)
    ensures Matches(b[square], color) ==>
              Count(b, R, square, color).liberties == LibertiesOf(b, R, Group(b, R, color, square))
    ensures b[square] == EMPTY ==>
              Count(b, R, square, color).group == {} && Count(b, R, square, color).liberties == {square}
    ensures b[square] != EMPTY && !Matches(b[square], color) ==>
              Count(b, R, square, color).group == {} && Count(b, R, square, color).liberties == {}
  {
    var r := Count(b, R, square, color);
    CountExplores(b, R, square, color);
    var S := Stones(b, color);
    forall t | t in r.group
      ensures t in Group(b, R, color, square)
    {
      ReachableMono(r.group, S, R, square, t);
    }
    forall t | t in Group(b, R, color, square)
      ensures t in r.group
    {
      var p :| IsPathIn(S, R, p) && p[0] == square && p[|p| - 1] == t;
      assert [square][0] == square;
      ClosedSetHoldsPath(r.group, S, R, p);
    }
    if Matches(b[square], color) {
      assert square !in Empties(b);
      forall y | y in LibertiesOf(b, R, r.group)
        ensures y in r.liberties
      {
        var x :| x in r.group && Adjacent(R, x, y);
        assert y in Empties(b);
      }
    } else if b[square] == EMPTY {
      assert [square][0] == square;
      assert r.group == {};
    } else {
      assert square !in Empties(b);
      assert r.group == {};
      assert r.liberties == {};
    }
  }

  /** A scan sets the marker bit on its group and the liberty bit on its
      liberties, and nothing else: colour bits and the sentinel survive, and
      no square is both a stone of the group and a liberty. */
  lemma CountOnlyMarks(b: seq<Cell>, R: int, square: int, color: Cell)
    requires Framed(b, R) && 0 <= square < |b| && IsStoneColor(color)
    ensures var r := Count(b, R, square, color);
      && |r.board| == |b|
      && r.group !! r.liberties
      && (forall i :: 0 <= i < |b| ==> r.board[i] & 3 == b[i] & 3)
      && (forall i :: 0 <= i < |b| && b[i] == OFFBOARD ==> r.board[i] == OFFBOARD)
      && (forall i :: i in r.group ==> 0 <= i < |b| && r.board[i] == b[i] | MARKER)
      && (forall i :: i in r.liberties ==> 0 <= i < |b| && b[i] == EMPTY && r.board[i] == LIBERTY)
      && (forall i :: 0 <= i < |b| && i !in r.group && i !in r.liberties ==> r.board[i] == b[i])
  {
    var r := Count(b, R, square, color);
    CountExplores(b, R, square, color);
    forall i | 0 <= i < |b|
      ensures r.board[i] & 3 == b[i] & 3
    {
      assert r.board[i] == MarkedPiece(b, r.group, r.liberties, i);
    }
  }

  /** Marks are only ever added by a scan, so restoring afterwards gives what
      restoring before would have given. */
  lemma RestoreAfterCount(b: seq<Cell>, R: int, square: int, color: Cell)
    requires Framed(b, R) && WellEncoded(b) && 0 <= square < |b| && IsStoneColor(color)
    ensures WellEncoded(Count(b, R, square, color).board)
    ensures Restore(Count(b, R, square, color).board) == Restore(b)
  {
    var r := Count(b, R, square, color);
    CountOnlyMarks(b, R, square, color);
    forall i | 0 <= i < |b|
      ensures Restore(r.board)[i] == Restore(b)[i]
    {
      if i in r.group {
        assert b[i] & 3 != 3;
      }
    }
  }
}
